=== FILE: README.md ===
# A Dafny model of the wysiwyg-editor document core

The editor keeps a document as a tree of `Node`s. Each node has an optional id and a
type: `start`, `parent`, a text run (the source spells this tag `parapagh`; the model calls it
`Paragraph`), `listChild` or `bold`. It also has optional text
`content`, ordered `children`, optional `styling` class names and three attribute flags.
Beside the tree sits a cursor `{x, y, anchorX}`, the `currentNode` the cursor is in, and
`previousNodeId`, which is set when a click lands between rendered nodes.

Key presses drive these operations:
- a small set of immutable tree helpers: find by id, insert or delete a character, replace
  by id, remove by id with splice-up, and find the node that follows a given sibling;
- the component's `handleKeyPress` dispatch, arrow navigation and typing;
- an earlier set of handlers kept beside it: backspace with its three cases, the earlier
  arrow navigation, and the vertical move that remembers the column.

The model is made of pure functions over immutable datatypes.

| file | module | what it holds |
|---|---|---|
| `wrappers.dfy` | `Wrappers` | `Option` |
| `js_string.dfy` | `JsString` | JavaScript's `String.prototype.slice` (negative indices count from the end, then clamp), out-of-range indexing, truthiness of `string \| undefined`, `x \|\| ""` and `x?.length \|\| d` |
| `document.dfy` | `Document` | the `Node` datatype, plus reference definitions the helpers are proved against: pre-order traversal, id filters, child paths, node labels (a node without its children), the (node, preceding sibling) pairs of a tree, and "first node following a sibling with id p" |
| `node_helpers.dfy` | `NodeHelpers` | the six tree helpers |
| `tree_properties.dfy` | `TreeProperties` | what the helpers guarantee: exact search, insert/delete round trip, replace-by-id semantics, idempotence, path-copy form, composition, splice-up, order preservation, elimination |
| `keys.dfy` | `Keys` | key names and the dispatch classification |
| `editor_state.dfy` | `EditorState` | cursor, editor, caret-movement records; the horizontal arrow rule shared by both navigation handlers |
| `app.dfy` | `App` | the component's handlers: node resolution through `previousNodeId`, `moveWithArrowCursor` (corrected and as written), `addCharacter`, `handleKeyPress` |
| `old_functions.dfy` | `OldFunctions` | the earlier `addCharacter`, `removeCharacter`, `deleteNode`, `removeFormNextNode`, `moveWithArrowCursor` and the clamp in `moveCursorHorizontal` |
| `conformance.dfy` | `Conformance` | where the component's handlers agree with the earlier ones, and concrete edits on a paragraph of three bold runs |

Some inputs are parameters:
- The rendered page enters through its sibling relation only: a `Page` parameter gives,
  for an element id, the id of the element just before (or just after) it. Over it,
  `findPreviousNode`/`findNextNode` are modelled in full (`NodeHelpers.FindSibling`): a
  falsy id asks the page nothing, a sibling without an id gives `undefined`, and otherwise
  the record holds the first node of the tree carrying the sibling's id, or `undefined`
  when no node does.
- The random id `Math.random().toString(36)…` is a `newId` parameter.
- A handler that stores a caret movement returns it next to the new editor state in a
  `Step`.

Where the source mutates a `structuredClone` of the tree and returns it, the model
returns a new value.

## Model

| member | source | states |
|---|---|---|
| NodeHelpers.Collect | src/helpers/NodeHelpers.tsx:98-107 | the recursive push into `res` appends exactly the nodes whose id equals `id`, in depth-first pre-order, after what `res` already held |
| NodeHelpers.FindNodeFromId | src/helpers/NodeHelpers.tsx:98-107 | a falsy id (missing or empty) gives no result; otherwise the result is `res` followed by every node of the tree with that id, parent before children |
| TreeProperties.FindNodeFromIdExact | src/helpers/NodeHelpers.tsx:98-107 | a node is in the search result if and only if it is in the tree and carries the id |
| NodeHelpers.AddCharToNode | src/helpers/NodeHelpers.tsx:108-114 | only `content` changes; it becomes the text before the slice index of `pos`, then the typed text, then the rest (missing content reads as ""); for `0 <= pos <= len` that is plain insertion at `pos` |
| NodeHelpers.RemoveCharFromNode | src/helpers/NodeHelpers.tsx:116-123 | only `content` changes; for `1 <= pos <= len` exactly the character at `pos - 1` is deleted and the length drops by one; `pos` 0 or past the end leaves the text as it was; a negative `pos` leaves a suffix |
| TreeProperties.AddThenRemoveRestores | src/helpers/NodeHelpers.tsx:108-123 | inserting one character at `p` (`0 <= p <= len`) and then deleting before `p + 1` gives back the original text |
| NodeHelpers.UpdateNode | src/helpers/NodeHelpers.tsx:125-136 | a root whose id matches `oldNode.id` is replaced outright; any other node keeps its own fields and its number of children |
| TreeProperties.UpdateNodeNoMatch | src/helpers/NodeHelpers.tsx:125-136 | with no node carrying the id, the tree comes back unchanged |
| TreeProperties.UpdateNodeReplacesMatch | src/helpers/NodeHelpers.tsx:125-136 | a matching node with no matching ancestor is replaced by `newNode` at its path |
| TreeProperties.UpdateNodeKeepsOthers | src/helpers/NodeHelpers.tsx:129-135 | a non-matching node with no matching ancestor keeps its fields and child count at its path |
| TreeProperties.UpdateNodeEliminates | src/helpers/NodeHelpers.tsx:125-136 | when `newNode` does not carry the old id, the result carries it nowhere |
| TreeProperties.UpdateNodeIdempotent | src/helpers/NodeHelpers.tsx:125-136 | replacing twice with the same node is replacing once, when the new node does not carry the old id |
| TreeProperties.UpdateNodeIsPathCopy | src/helpers/NodeHelpers.tsx:125-136 | when the id occurs once, at a known path, the replace copies exactly that path and shares every other subtree |
| TreeProperties.UpdateNodeTwice | src/helpers/NodeHelpers.tsx:125-136 | replacing A by B and then B by C is replacing A by C, when B's id is fresh for the tree |
| NodeHelpers.RemoveNode | src/helpers/NodeHelpers.tsx:163-183 | the result is null exactly when the root matches and has no children; a non-matching root comes back as a one-element list with its own fields |
| TreeProperties.RemoveNodeSplicesUp | src/helpers/NodeHelpers.tsx:171-180 | a matching child is replaced in its parent's list by its own children, in order, between the processed siblings before and after it |
| TreeProperties.RemoveNodeKeepsOrder | src/helpers/NodeHelpers.tsx:163-183 | with no match nested under another match, the pre-order of the result, read without children, is the pre-order of the input minus the matching nodes |
| TreeProperties.RemoveNodeEliminates | src/helpers/NodeHelpers.tsx:163-183 | when the id occurs at most once, no node of the result carries it |
| NodeHelpers.GetNodeFromPreviousNode | src/helpers/NodeHelpers.tsx:185-203 | the result is the first node, in pre-order, whose preceding sibling (the given one for the root) carries `previousNodeId`; it is null when there is none |
| NodeHelpers.FindSibling | src/helpers/NodeHelpers.tsx:138-161 | the result is a record exactly when the id is truthy and the page gives a sibling with a truthy id; the record's node is missing exactly when no node carries that id, and is otherwise the first such node in pre-order |
| NodeHelpers.SiblingNodeInTree | src/helpers/NodeHelpers.tsx:144-161 | a node the sibling query finds is a node of the tree carrying the sibling element's id |
| NodeHelpers.SearchChildren | src/helpers/NodeHelpers.tsx:193-200 | the loop over children, each given its left neighbour (undefined for the first), returns the first match in the pairs of children `i` onward |
| Keys.Classify | src/App.tsx:291-334 | the two horizontal arrows navigate; Delete, Backspace and the listed control keys are ignored; every other key is typed as its own text; each case holds exactly when its condition does |
| Keys.VerticalArrowsAreTyped | src/App.tsx:308-313 | with their cases commented out, ArrowUp and ArrowDown reach the default case and are typed as text |
| App.Target | src/App.tsx:404-421 | a node found after the sibling with `previousNodeId` wins over `currentNode`; a `parent` node resolves to its first child; no node, or a childless parent, resolves to nothing |
| EditorState.ArrowRule | src/App.tsx:360-385 | inside the text the offset moves by one and the crossed character is reported; Left from offset 1 lands at the end of a previous node with text, Right from the end lands at offset 1 of a next node with text; otherwise no move; from an offset between 1 and the length, the landing stays within the landing node's text; from an offset below 1, and Left from past the end, the move is by one in the same node (Left from 0 goes to -1), since the offset is never clamped |
| App.MoveWithArrowCursor | src/App.tsx:336-399 | the document never changes; without a resolved node with text, nothing changes; otherwise the landing is the arrow rule's, with the leftward query keyed by the resolved node and the rightward one by `currentNode`: inside the text Right goes to x + 1 and Left to x - 1 in the same node, at a boundary the neighbour found becomes current, and no landing means no change; a move sets the cursor and anchor together, clears `previousNodeId`, and reports the crossed character, the direction and the landing node's styling |
| App.MoveStaysInText | src/App.tsx:360-392 | starting inside the resolved node's text, a move ends inside the new current node's text |
| App.MoveWithArrowCursorAsWritten | src/App.tsx:366-385 | as written the handler never changes the document and reports no movement only when the editor is unchanged; at a boundary (Left at offset 1, Right at or past the end of a resolved node with text) it leaves the editor unchanged whatever the neighbour is |
| App.LeftBoundaryLostAsWritten | src/App.tsx:366-374 | at offset 1 with a previous node that has text, the as-written handler does nothing while the corrected one moves to the end of that node |
| App.RightBoundaryLostAsWritten | src/App.tsx:375-385 | at the end of the text with a next node that has text, the as-written handler does nothing while the corrected one moves after that node's first character |
| App.AsWrittenAgreesInside | src/App.tsx:360-364 | away from the two boundaries the as-written and corrected handlers agree |
| App.AddCharacter | src/App.tsx:401-448 | without a resolved node nothing changes; otherwise the resolved node, under a fresh id and with the text inserted at the cursor, becomes current and replaces the old node by id in the tree, the cursor and anchor advance by one, and a rightward caret move with the typed text and the node's styling is reported |
| App.AddCharacterEditsInPlace | src/App.tsx:423-439 | when the resolved node's id occurs once in the tree, typing rewrites just that node's position, and the node found there is the new current node |
| App.HandleKeyPress | src/App.tsx:291-334 | Left and Right dispatch to the corrected arrow move `App.MoveWithArrowCursor` (the source's switch calls the as-written handler, see Findings), ignored keys change nothing, any other key is typed |
| App.OnlyTypingEditsDocument | src/App.tsx:291-334 | a key press that changes the document is a typed key and had a node to type into |
| OldFunctions.AddCharacter | src/helpers/OldFunctions.ts:16-41 | as the component's typing, but on `currentNode` directly: the fresh-id copy with the text inserted replaces it by id and the cursor advances by one |
| Conformance.AppAddMatchesOld | src/App.tsx:401-448 | when resolution leaves `currentNode` as it is, the component's typing is the earlier one |
| Conformance.AppMoveMatchesOld | src/App.tsx:336-399 | when resolution leaves `currentNode` as it is, the component's arrow move is the earlier one except that it clears `previousNodeId` |
| OldFunctions.RemoveCharacter | src/helpers/OldFunctions.ts:43-92 | a one-character node goes to node deletion; offset 0 goes to deleting from the previous node; at offset 1, a previous element that no node answers to makes the handler throw and nothing changes; at offsets 2 through the length, the fresh-id copy loses the character before the cursor, replaces the node by id, and the cursor and anchor step back by one |
| OldFunctions.BackspaceAtFirstChar | src/helpers/OldFunctions.ts:62-85 | at offset 1 in a longer text the first character is deleted and the cursor moves to the end of the previous node (1 if it has no text), or, when the page has no previous element, to the end of the edited node (offset 1 of "hi " becomes offset 2 of "i "); a previous element no node answers to leaves the editor unchanged |
| OldFunctions.DeleteNode | src/helpers/OldFunctions.ts:94-117 | the node is removed with splice-up; the node the page shows before it, looked up in the edited tree (the original one when the root itself was removed), becomes current; the cursor and anchor go to its end, or to 1 when it is missing or has no text; a childless root that is itself the current node is left alone; a root that is not the current node keeps its own fields |
| OldFunctions.BackspaceOnSingleCharRemovesNode | src/helpers/OldFunctions.ts:94-117 | when the node's id is unique and it is not the root, backspace on one character leaves no node with that id, makes the node before it in the edited tree current, and puts the cursor at that node's end, or at 1 without text |
| OldFunctions.RemoveFormNextNode | src/helpers/OldFunctions.ts:119-146 | the previous node, keeping its id, loses its last character and replaces itself in the tree; the cursor and anchor go to its new end; with no previous node nothing changes |
| OldFunctions.RemoveLastChar | src/helpers/OldFunctions.ts:129-131 | deleting before position `content?.length \|\| 1` drops the last character, and leaves empty text empty |
| OldFunctions.TypeThenBackspaceRestores | src/helpers/OldFunctions.ts:16-92 | typing one character inside the text and then pressing backspace restores the text and the cursor column, and the tree is the original with one replacement of the node |
| OldFunctions.MoveWithArrowCursor | src/helpers/OldFunctions.ts:194-236 | the document and `previousNodeId` stay; without a current node with text nothing changes; otherwise the landing is the arrow rule's with both queries keyed by the current node's id: inside the text Right goes to x + 1 and Left to x - 1, at a boundary the neighbour found becomes current, no landing means no change; a move sets the cursor and anchor together |
| OldFunctions.MoveKeepsPositioned | src/helpers/OldFunctions.ts:203-231 | a cursor inside the current node's text stays inside the current node's text |
| OldFunctions.MoveCursorHorizontal | src/helpers/OldFunctions.ts:247-291 | Down with a next node found makes it current, Up with a previous node found likewise, with the cursor at the anchor column clamped to that node's length (`content?.length \|\| 0`) and the anchor kept; with no node found, or any other key, nothing changes |
| OldFunctions.DownThenUpReturns | src/helpers/OldFunctions.ts:247-291 | when the page's two sibling relations are inverse at the current node's element and its id is unique in the tree, Down then Up returns to the current node with the cursor at the anchor column clamped to its length |
| OldFunctions.VerticalMovesKeepColumn | src/helpers/OldFunctions.ts:260-288 | after two vertical moves the anchor is the original one and the cursor is that anchor clamped to the length of the node reached |
| Conformance.BackspaceRemovesRun | src/helpers/OldFunctions.ts:94-117 | on a paragraph of three runs, backspace in the run "a" removes it, leaving "hi " and "yup", with the cursor at the end of "hi " |

## Left out

- Rendering (`documentResolver`, `parseDoc`, `ApplyStyles` in `src/helpers/NodeHelpers.tsx`) is not modelled. It builds the page's elements, so the `Page` parameter stands for its output. A `parent` node's children are rendered only when the node itself carries `isText` or `isList` at top level, or is the `start` node. The editor's own document keeps these flags under `attributes`, so its paragraphs render none of their runs. Rendering also has two side effects on the tree that are not modelled. First, it overwrites node ids with fresh random ones: the root's unless `keepId` is passed, and every node it recurses into (the children of a node it renders through its parent, list or `start` branches) always, because the recursive calls do not pass `keepId`. Second, `ApplyStyles` shortens a node's `styling` array in place with `pop()` when it holds more than one style. The model takes the tree's ids and styling as given between renders.
- `findNodeInDomFromId` and the `previousElementSibling`/`nextElementSibling` reads are the `Page` parameters. An id that no element carries is not told apart from an element without a sibling, because both give `undefined`.
- Caret geometry is not modelled: `src/helpers/CaretHelper.ts`, `getCharWidth`, `getStringWidth`, `moveCaret`, `computeNextCaret`, the pixel caret set by `moveCursorHorizontal`, and the `moveCaret` calls. These measure text on the page. For the component's handlers (`App.*`) the model keeps the character and direction handed to `moveCaret` as the `Step`'s `movement`. For the earlier handlers (`OldFunctions.AddCharacter`, `RemoveCharacter`, `DeleteNode`, `RemoveFormNextNode` and `MoveWithArrowCursor`) the `moveCaret` call is dropped entirely: they return a bare `Editor`.
- `handleSelection` and `handleMouseClick` are not modelled. They turn a mouse position into a node and offset through the page.
- React state, refs and effects are not modelled. Each handler is a function from the old editor state to the new one.
- `Math.random` ids are the `newId` parameter, and `structuredClone` is value semantics. The model does not prove that a drawn id is fresh. Lemmas that need freshness require it.
- `src/types/Node.ts` is not part of this model. It is an older shape of the node type that the handlers do not use.
- `null` or missing `children` arrays are not representable, because every node has a (possibly empty) sequence. `findNodeFromId`, `updateNode` and `removeNode` treat a missing array like an empty one. `getNodeFromPreviousNode` reads `doc.children.length` without a guard and would throw on it.
- A handler that throws is modelled as leaving the state unchanged. The component's handlers throw on a `parent` node with no children. The earlier `removeCharacter` throws at offset 1 when the page has a previous element but no node carries its id.
- Key names are assumed to match the browser's `KeyboardEvent.key` values. The `Keys` enumeration's values are not part of this model.
- Console logging and warnings are not modelled.
- NodeHelpers.UpdateNode: its contract states only what happens at the root. Its meaning over the whole tree is in the TreeProperties lemmas.
- NodeHelpers.RemoveNode: its contract states only the root cases. The splice-up, order and elimination properties are TreeProperties lemmas.
- OldFunctions.MoveWithArrowCursor: the landing node and offset are stated through `EditorState.ArrowRule`. That the offset stays inside the landing node's text is stated only in OldFunctions.MoveKeepsPositioned, and only from a positioned start.
- Which node lies before or after another is whatever the page's sibling elements give. The model does not prove that the two `Page` directions are inverse. OldFunctions.DownThenUpReturns requires it at the current node's element.
- Text lengths and offsets count Unicode scalar values, because a Dafny `string` is a sequence of them. The source's `length`, `slice` and `content[i]` count UTF-16 code units. The two agree on text inside the Basic Multilingual Plane. Outside it they differ: an emoji has length 2 in the source and 1 here, so cursor offsets and the crossed character differ on such text.

## Findings

| source | as written | input that shows it | evidently intended | confidence | as-written member | corrected member |
|---|---|---|---|---|---|---|
| src/App.tsx:366-385 | at a boundary `moveWithArrowCursor` assigns the `{node, domNode}` record returned by `findPreviousNode`/`findNextNode` to `currentNode`, then reads `currentNode.content`, which is `undefined`, so the handler returns without moving | a `parent` node carrying `isText: true` at top level (so that it is rendered as a `<p>` with its runs), holding the bold runs "hi ", "a" and "yup", each rendered as a `<strong>` element with the node's id: ArrowLeft at offset 1 of "yup", whose previous element is "a" (and ArrowRight at offset 3 of "hi ", whose next element is "a") | use the record's `.node`, as the earlier handler does, landing at the end of the previous node or after the first character of the next one | not executed | App.MoveWithArrowCursorAsWritten | App.MoveWithArrowCursor |

`App.LeftBoundaryLostAsWritten` and `App.RightBoundaryLostAsWritten` prove the two behaviours diverge for every such input. `Conformance.BoundaryMovesAsWritten` and `Conformance.BoundaryMoves` show it on that paragraph. The key-press dispatch `App.HandleKeyPress` uses the corrected move.

### Behaviours of the code worth knowing

- A leftward move crosses into the previous node from offset 1, not 0. Entering the next node lands at offset 1, after its first character.
- `updateNode` does not stop at the first match. It replaces every matching node that has no matching ancestor.
- Offsets are not clamped. `addCharToNode` and `removeCharFromNode` follow `String.prototype.slice`, so a negative offset counts from the end of the text.
- When no previous node is found, or it has no text, `deleteNode` puts the cursor at 1.
- Arrow offsets are never clamped. ArrowLeft at offset 0 moves to -1 in the same node, and further presses keep going down.
- Backspace at offset 1 when the page has no previous element moves the cursor to the end of the edited node, not to its start: offset 1 of "hi " becomes offset 2 of "i ".
- The component ignores Delete and Backspace: its call to `removeCharacter` is commented out. ArrowUp and ArrowDown are typed into the document as text.

=== FILE: app.dfy ===
/**
 * The key handler of the editor component: dispatch, arrow navigation and character
 * insertion, each a transition from the editor record (plus the key) to a new record.
 * The node a handler works on is resolved first: the node that follows the sibling with
 * id `previousNodeId` wins over `currentNode`, and a `parent` node stands for its first
 * child.
 */
module App {
  import opened Wrappers
  import opened JsString
  import opened Document
  import opened NodeHelpers
  import opened Keys
  import opened EditorState
  import TreeProperties

  /** The node the handlers act on. `None` when there is none, and also when it is a
      `parent` without children: `children[0]` is then `undefined` and the handler throws
      before changing anything. */
  function Target(e: Editor): (r: Option<Node>)
    ensures
      var found := FirstAfter(Siblings(e.doc, None), OrEmpty(e.previousNodeId));
      var chosen := if found.Some? then found else e.currentNode;
      && (chosen.None? ==> r.None?)
      && (chosen.Some? && chosen.value.kind != Parent ==> r == chosen)
      && (chosen.Some? && chosen.value.kind == Parent ==>
            r == if chosen.value.children == [] then None else Some(chosen.value.children[0]))
  {
    var found := GetNodeFromPreviousNode(e.doc, OrEmpty(e.previousNodeId), None);
    var current := if found.Some? then found else e.currentNode;
    match current
    case None => None
    case Some(n) =>
      if n.kind == Parent then (if |n.children| > 0 then Some(n.children[0]) else None)
      else Some(n)
  }

  /** Installs a landing: cursor and anchor at the new offset, the landing node current,
      `previousNodeId` cleared, and the crossed character handed to the caret code. */
  function Arrive(e: Editor, l: Landing, direction: Horizontal): Step {
    Step(
      SetCursor(e, l.x).(currentNode := Some(l.node), previousNodeId := None),
      Some(CaretMovement(Glyph(l.crossed), direction, l.node.styling)))
  }

  // ---------------------------------------------------------------------------
  // moveWithArrowCursor

  /** `moveWithArrowCursor` with the boundary cases using the node the sibling query found.
      The rightward query is keyed by `currentNode`'s id, the leftward one by the resolved
      node's id, as in the handler. */
  function MoveWithArrowCursor(e: Editor, direction: Horizontal, previous: Page, next: Page): (s: Step)
    ensures s.editor.doc == e.doc && s.editor.cursor.y == e.cursor.y
    ensures s.movement.None? ==> s.editor == e
    ensures s.movement.Some? ==>
      && s.editor.cursor.anchorX == s.editor.cursor.x
      && s.editor.previousNodeId.None?
      && s.editor.currentNode.Some?
      && Truthy(s.editor.currentNode.value.content)
      && s.movement.value.direction == direction
      && s.movement.value.styling == s.editor.currentNode.value.styling
    ensures Target(e).None? || !Truthy(Target(e).value.content) ==> s == NoChange(e)
    ensures Target(e).Some? && Truthy(Target(e).value.content) ==>
      var cur := Target(e).value;
      var l := ArrowRule(cur, e.cursor.x, direction, SiblingNode(previous, e.doc, cur.id), SiblingNode(next, e.doc, IdOf(e.currentNode)));
      && (l.None? ==> s == NoChange(e))
      && (l.Some? ==> s.editor.currentNode == Some(l.value.node) && s.editor.cursor.x == l.value.x
                      && s.movement == Some(CaretMovement(Glyph(l.value.crossed), direction, l.value.node.styling)))
    ensures Target(e).Some? && Truthy(Target(e).value.content) ==>
      var x := e.cursor.x;
      && (direction == Right && x < |Target(e).value.content.value| ==>
            s.editor.currentNode == Target(e) && s.editor.cursor.x == x + 1)
      && (direction == Left && x != 1 ==>
            s.editor.currentNode == Target(e) && s.editor.cursor.x == x - 1)
  {
    match Target(e)
    case None => NoChange(e)
    case Some(cur) =>
      if !Truthy(cur.content) then NoChange(e)
      else
        match ArrowRule(cur, e.cursor.x, direction, SiblingNode(previous, e.doc, cur.id), SiblingNode(next, e.doc, IdOf(e.currentNode)))
        case None => NoChange(e)
        case Some(l) => Arrive(e, l, direction)
  }

  /** `moveWithArrowCursor` as written: at a boundary the handler stores the sibling
      query's `{node, domNode}` record itself as the current node and then reads its
      `content`, which is `undefined`, so it returns without moving. Interior moves are as
      in `MoveWithArrowCursor`. */
  function MoveWithArrowCursorAsWritten(e: Editor, direction: Horizontal, previous: Page, next: Page): (s: Step)
    ensures s.editor.doc == e.doc
    ensures s.movement.None? ==> s.editor == e
    ensures Target(e).Some? && Truthy(Target(e).value.content)
      && ((direction == Left && e.cursor.x == 1)
          || (direction == Right && e.cursor.x >= |Target(e).value.content.value|))
      ==> s == NoChange(e)
  {
    match Target(e)
    case None => NoChange(e)
    case Some(cur) =>
      if !Truthy(cur.content) then NoChange(e)
      else
        var x := e.cursor.x;
        if (direction == Left && x - 1 == 0) || (direction == Right && x + 1 > |cur.content.value|) then
          NoChange(e)
        else
          match ArrowRule(cur, x, direction, SiblingNode(previous, e.doc, cur.id), SiblingNode(next, e.doc, IdOf(e.currentNode)))
          case None => NoChange(e)
          case Some(l) => Arrive(e, l, direction)
  }

  /** As written, a leftward move from offset 1 never reaches the previous node, even when
      the sibling query finds one with text; the corrected move lands at its end. */
  lemma LeftBoundaryLostAsWritten(e: Editor, previous: Page, next: Page, cur: Node, p: Node)
    requires Target(e) == Some(cur) && Truthy(cur.content) && e.cursor.x == 1
    requires SiblingNode(previous, e.doc, cur.id) == Some(p) && Truthy(p.content)
    ensures MoveWithArrowCursorAsWritten(e, Left, previous, next) == NoChange(e)
    ensures MoveWithArrowCursor(e, Left, previous, next).editor
         == SetCursor(e, |p.content.value|).(currentNode := Some(p), previousNodeId := None)
  {
  }

  /** As written, a rightward move past the last character never reaches the next node;
      the corrected move lands after that node's first character. */
  lemma RightBoundaryLostAsWritten(e: Editor, previous: Page, next: Page, cur: Node, n: Node)
    requires Target(e) == Some(cur) && Truthy(cur.content) && e.cursor.x >= |cur.content.value|
    requires SiblingNode(next, e.doc, IdOf(e.currentNode)) == Some(n) && Truthy(n.content)
    ensures MoveWithArrowCursorAsWritten(e, Right, previous, next) == NoChange(e)
    ensures MoveWithArrowCursor(e, Right, previous, next)
         == Step(SetCursor(e, 1).(currentNode := Some(n), previousNodeId := None),
                 Some(CaretMovement(Some([n.content.value[0]]), Right, n.styling)))
  {
  }

  /** Away from the boundaries the as-written move and the corrected one agree. */
  lemma AsWrittenAgreesInside(e: Editor, direction: Horizontal, previous: Page, next: Page)
    requires Target(e).Some? && Truthy(Target(e).value.content)
    requires direction == Left ==> e.cursor.x != 1
    requires direction == Right ==> e.cursor.x < |Target(e).value.content.value|
    ensures MoveWithArrowCursorAsWritten(e, direction, previous, next) == MoveWithArrowCursor(e, direction, previous, next)
  {
  }

  /** Starting inside the target's text, a move that happens ends inside the new current
      node's text, with the anchor on the cursor. */
  lemma MoveStaysInText(e: Editor, direction: Horizontal, previous: Page, next: Page)
    requires Target(e).Some? && Target(e).value.content.Some?
    requires 1 <= e.cursor.x <= |Target(e).value.content.value|
    ensures
      var s := MoveWithArrowCursor(e, direction, previous, next);
      s.movement.Some? ==> Positioned(s.editor) && s.editor.cursor.anchorX == s.editor.cursor.x
  {
  }

  // ---------------------------------------------------------------------------
  // addCharacter

  /** `addCharacter(char)`: the target gets a fresh id and the typed `text` inserted at the cursor,
      the copy replaces the target by id throughout the tree, and the cursor and anchor
      advance by one. */
  function AddCharacter(e: Editor, text: string, newId: string): (s: Step)
    ensures Target(e).None? ==> s == NoChange(e)
    ensures Target(e).Some? ==>
      var cur := Target(e).value;
      var c := OrEmpty(cur.content);
      var k := SliceIndex(e.cursor.x, |c|);
      && s.editor.currentNode == Some(cur.(id := Some(newId), content := Some(c[..k] + text + c[k..])))
      && s.editor.doc == UpdateNode(e.doc, cur, s.editor.currentNode.value)
      && s.editor.cursor == e.cursor.(x := e.cursor.x + 1, anchorX := e.cursor.x + 1)
      && s.editor.previousNodeId == e.previousNodeId
      && s.movement == Some(CaretMovement(Some(text), Right, cur.styling))
  {
    match Target(e)
    case None => NoChange(e)
    case Some(cur) =>
      var newNode := AddCharToNode(cur.(id := Some(newId)), text, e.cursor.x);
      Step(
        SetCursor(e, e.cursor.x + 1).(doc := UpdateNode(e.doc, cur, newNode), currentNode := Some(newNode)),
        Some(CaretMovement(Some(text), Right, cur.styling)))
  }

  /** When the target is the only node with its id, typing rewrites exactly the target's
      position in the tree, and the node found there is the new current node. */
  lemma AddCharacterEditsInPlace(e: Editor, text: string, newId: string, path: seq<nat>)
    requires Target(e).Some? && At(e.doc, path) == Target(e)
    requires UniquelyAt(e.doc, path, Target(e).value.id)
    ensures
      var s := AddCharacter(e, text, newId);
      && s.editor.doc == ReplaceAt(e.doc, path, s.editor.currentNode.value)
      && At(s.editor.doc, path) == s.editor.currentNode
  {
    var s := AddCharacter(e, text, newId);
    TreeProperties.UpdateNodeIsPathCopy(e.doc, Target(e).value, s.editor.currentNode.value, path);
    ReplaceAtLands(e.doc, path, s.editor.currentNode.value);
  }

  /** After a path-copying replace, the replacement sits at the path. */
  lemma {:induction false} ReplaceAtLands(n: Node, path: seq<nat>, r: Node)
    requires At(n, path).Some?
    ensures At(ReplaceAt(n, path, r), path) == Some(r)
    decreases |path|
  {
    if path != [] {
      ReplaceAtLands(n.children[path[0]], path[1..], r);
    }
  }

  // ---------------------------------------------------------------------------
  // handleKeyPress

  /** `handleKeyPress`: the arrows navigate, the ignored keys do nothing, and any other key
      is typed as text. `newId` is the fresh id typing would draw at random. */
  function HandleKeyPress(e: Editor, key: string, newId: string, previous: Page, next: Page): (s: Step)
    ensures key in Ignored ==> s == NoChange(e)
    ensures key == ArrowLeft ==> s == MoveWithArrowCursor(e, Left, previous, next)
    ensures key == ArrowRight ==> s == MoveWithArrowCursor(e, Right, previous, next)
    ensures key != ArrowLeft && key != ArrowRight && key !in Ignored ==> s == AddCharacter(e, key, newId)
  {
    match Classify(key)
    case Navigate(direction) => MoveWithArrowCursor(e, direction, previous, next)
    case Ignore => NoChange(e)
    case Insert(text) => AddCharacter(e, text, newId)
  }

  /** Only typed keys change the document. */
  lemma OnlyTypingEditsDocument(e: Editor, key: string, newId: string, previous: Page, next: Page)
    ensures HandleKeyPress(e, key, newId, previous, next).editor.doc != e.doc ==>
      key != ArrowLeft && key != ArrowRight && key !in Ignored && Target(e).Some?
  {
  }
}

=== FILE: conformance.dfy ===
/**
 * How the component's handlers relate to the earlier ones, and concrete edits on a small
 * document: a `parent` node holding the bold runs "hi ", "a" and "yup". `Node` has no
 * top-level `isText` flag (only the one held in `attributes`, which `Para` sets), so the
 * sample's page order is not derived from `Para`'s fields: it is given by the `Page`
 * functions `PreviousRun` and `NextRun`. They give the order rendering produces when the
 * paragraph carries `isText` at top level: it becomes a `<p>`, and each styled run an
 * element carrying the run's id.
 */
module Conformance {
  import opened Wrappers
  import opened Document
  import opened NodeHelpers
  import opened Keys
  import opened EditorState
  import App
  import OldFunctions

  /** When resolution leaves the current node as it is, the component's arrow move is the
      earlier one, except that it also clears `previousNodeId`. */
  lemma AppMoveMatchesOld(e: Editor, direction: Horizontal, previous: Page, next: Page)
    requires App.Target(e) == e.currentNode
    ensures App.MoveWithArrowCursor(e, direction, previous, next).editor.(previousNodeId := e.previousNodeId)
         == OldFunctions.MoveWithArrowCursor(e, direction, previous, next)
  {
  }

  /** When resolution leaves the current node as it is, the component's typing is the
      earlier one. */
  lemma AppAddMatchesOld(e: Editor, text: string, newId: string)
    requires App.Target(e) == e.currentNode
    ensures App.AddCharacter(e, text, newId).editor == OldFunctions.AddCharacter(e, text, newId)
  {
  }

  // ---------------------------------------------------------------------------
  // Scenarios

  const Plain := Attributes(false, false, false)

  function Run(id: string, text: string): Node {
    Node(Some(id), Paragraph, Some(text), [], Some(["bold"]), Plain)
  }

  const Hi := Run("r1", "hi ")
  const A := Run("r2", "a")
  const Yup := Run("r3", "yup")
  const Para := Node(Some("p"), Parent, Some(""), [Hi, A, Yup], None, Attributes(true, false, false))
  const Doc := Node(Some("root"), Start, Some(""), [Para], None, Plain)

  /** The rendered paragraph's element order: "hi ", "a", "yup". */
  function PreviousRun(id: string): Option<string> {
    if id == "r3" then Some("r2") else if id == "r2" then Some("r1") else None
  }

  function NextRun(id: string): Option<string> {
    if id == "r1" then Some("r2") else if id == "r2" then Some("r3") else None
  }

  function EditorAt(current: Node, x: int): Editor {
    Editor(Doc, Cursor(x, 0, x), Some(current), None)
  }

  /** No node of the sample document follows a sibling with an empty id, so with no
      `previousNodeId` the handlers keep the current node. */
  lemma SampleResolvesToCurrent(current: Node, x: int)
    ensures current.kind != Parent ==> App.Target(EditorAt(current, x)) == Some(current)
  {
    var none: Option<Node> := None;
    assert SiblingsFrom(Hi, 0) == [] && SiblingsFrom(A, 0) == [] && SiblingsFrom(Yup, 0) == [];
    assert SiblingsFrom(Para, 3) == [];
    assert SiblingsFrom(Para, 2) == [(Yup, Some(A))];
    assert SiblingsFrom(Para, 1) == [(A, Some(Hi)), (Yup, Some(A))];
    assert SiblingsFrom(Para, 0) == [(Hi, none), (A, Some(Hi)), (Yup, Some(A))];
    assert SiblingsFrom(Doc, 1) == [];
    assert SiblingsFrom(Doc, 0) == [(Para, none), (Hi, none), (A, Some(Hi)), (Yup, Some(A))];
    var ps := Siblings(Doc, None);
    assert ps == [(Doc, none), (Para, none), (Hi, none), (A, Some(Hi)), (Yup, Some(A))];
    assert forall k :: 0 <= k < |ps| ==> !FollowsId(ps[k], "");
  }

  /** Typing "!" at the start of "hi " gives "!hi " with the cursor after the "!". */
  lemma TypeAtStart()
    ensures
      var r := OldFunctions.AddCharacter(EditorAt(Hi, 0), "!", "n1");
      r.currentNode.value.content == Some("!hi ") && r.cursor.x == 1
  {
    assert "hi "[..0] + "!" + "hi "[0..] == "!hi ";
  }

  /** Backspace at the end of "yup" gives "yu" with the cursor at 2. */
  lemma BackspaceAtEnd()
    ensures
      var r := OldFunctions.RemoveCharacter(EditorAt(Yup, 3), "n2", PreviousRun);
      r.currentNode.value.content == Some("yu") && r.cursor.x == 2
  {
    assert "yup"[..2] + "yup"[3..] == "yu";
  }

  /** The runs of the sample paragraph and of the paragraph without "a" in pre-order. */
  lemma SamplePreorders()
    ensures Preorder(Doc) == [Doc, Para, Hi, A, Yup]
    ensures
      var para' := Para.(children := [Hi, Yup]);
      Preorder(Doc.(children := [para'])) == [Doc.(children := [para']), para', Hi, Yup]
  {
    assert PreorderAll([Yup]) == [Yup] by { assert [Yup][1..] == []; }
    assert PreorderAll([A, Yup]) == [A, Yup] by { assert [A, Yup][1..] == [Yup]; }
    assert PreorderAll([Hi, A, Yup]) == [Hi, A, Yup] by { assert [Hi, A, Yup][1..] == [A, Yup]; }
    assert PreorderAll([Hi, Yup]) == [Hi, Yup] by { assert [Hi, Yup][1..] == [Yup]; }
    assert PreorderAll([Para]) == Preorder(Para) by { assert [Para][1..] == []; }
    var para' := Para.(children := [Hi, Yup]);
    assert PreorderAll([para']) == Preorder(para') by { assert [para'][1..] == []; }
  }

  /** The sibling queries the scenarios make, answered in the sample trees. */
  lemma SampleSiblings()
    ensures SiblingNode(PreviousRun, Doc, Some("r3")) == Some(A)
    ensures SiblingNode(NextRun, Doc, Some("r1")) == Some(A)
    ensures
      var para' := Para.(children := [Hi, Yup]);
      SiblingNode(PreviousRun, Doc.(children := [para']), Some("r2")) == Some(Hi)
  {
    SamplePreorders();
    WithIdFirst([Doc, Para, Hi, A, Yup], Some("r2"), 3);
    var para' := Para.(children := [Hi, Yup]);
    WithIdFirst([Doc.(children := [para']), para', Hi, Yup], Some("r1"), 2);
  }

  /** Backspace in the one-character run "a" removes it from the paragraph and puts the
      cursor at the end of "hi ". */
  lemma BackspaceRemovesRun()
    ensures
      var r := OldFunctions.RemoveCharacter(EditorAt(A, 1), "n3", PreviousRun);
      && r.doc.children == [Para.(children := [Hi, Yup])]
      && r.currentNode == Some(Hi) && r.cursor.x == 3
  {
    assert [A][1..] == [];
    assert [Yup][1..] == [];
    assert Para.children[1..] == [A, Yup];
    assert Para.children[1..][1..] == [Yup];
    assert RemoveAll([Yup], A.id) == [Yup];
    assert RemoveAll([A, Yup], A.id) == [Yup];
    assert RemoveAll(Para.children, A.id) == [Hi, Yup];
    assert RemoveAll([Para], A.id) == [Para.(children := [Hi, Yup])];
    SampleSiblings();
  }

  /** Left from offset 1 of "yup" lands at the end of "a"; Right past the end of "hi "
      lands after the first character of "a". */
  lemma BoundaryMoves()
    ensures
      var l := App.MoveWithArrowCursor(EditorAt(Yup, 1), Left, PreviousRun, NextRun);
      l.editor.currentNode == Some(A) && l.editor.cursor.x == 1
    ensures
      var r := App.MoveWithArrowCursor(EditorAt(Hi, 3), Right, PreviousRun, NextRun);
      r.editor.currentNode == Some(A) && r.editor.cursor.x == 1
  {
    SampleResolvesToCurrent(Yup, 1);
    SampleResolvesToCurrent(Hi, 3);
    SampleSiblings();
  }

  /** The same two moves as written leave the editor unchanged. */
  lemma BoundaryMovesAsWritten()
    ensures App.MoveWithArrowCursorAsWritten(EditorAt(Yup, 1), Left, PreviousRun, NextRun) == NoChange(EditorAt(Yup, 1))
    ensures App.MoveWithArrowCursorAsWritten(EditorAt(Hi, 3), Right, PreviousRun, NextRun) == NoChange(EditorAt(Hi, 3))
  {
    SampleResolvesToCurrent(Yup, 1);
    SampleResolvesToCurrent(Hi, 3);
  }
}

=== FILE: document.dfy ===
/**
 * The editor's document tree and the reference traversals its properties are stated with.
 * A node is what the editor's code reads and writes: an optional id, a kind tag, optional
 * text content, an ordered child list, an optional styling stack and the container flags.
 */
module Document {
  import opened Wrappers

  /** Node kinds. `Paragraph` is the text-run kind the source spells `parapagh`;
      `Bold` is a legacy kind read only by the old caret-width code. */
  datatype NodeType = Start | Parent | Paragraph | ListChild | Bold

  /** The container-role flags: a text paragraph, a list, or a list item holding runs. */
  datatype Attributes = Attributes(isText: bool, isList: bool, isChildList: bool)

  datatype Node = Node(
    id: Option<string>,
    kind: NodeType,
    content: Option<string>,
    children: seq<Node>,
    styling: Option<seq<string>>,
    attributes: Attributes)

  /** The id of a node that may be absent: `node?.id`. */
  function IdOf(n: Option<Node>): Option<string> {
    match n
    case Some(m) => m.id
    case None => None
  }

  // ---------------------------------------------------------------------------
  // Depth-first pre-order

  /** Every node of the tree rooted at `n`, parent before children, children left to right. */
  function Preorder(n: Node): (ns: seq<Node>)
    ensures |ns| >= 1 && ns[0] == n
  {
    [n] + PreorderAll(n.children)
  }

  /** The pre-orders of a forest, concatenated. */
  function PreorderAll(cs: seq<Node>): seq<Node>
  {
    if cs == [] then [] else Preorder(cs[0]) + PreorderAll(cs[1..])
  }

  lemma {:induction false} PreorderAllAppend(a: seq<Node>, b: seq<Node>)
    ensures PreorderAll(a + b) == PreorderAll(a) + PreorderAll(b)
  {
    if a == [] {
      assert a + b == b;
    } else {
      assert (a + b)[1..] == a[1..] + b;
      PreorderAllAppend(a[1..], b);
    }
  }

  /** The pre-order of a suffix of a forest starts with the pre-order of its first tree. */
  lemma PreorderAllFrom(cs: seq<Node>, i: nat)
    requires i < |cs|
    ensures PreorderAll(cs[i..]) == Preorder(cs[i]) + PreorderAll(cs[i + 1..])
  {
    assert cs[i..][1..] == cs[i + 1..];
  }

  lemma {:induction false} PreorderAllMember(cs: seq<Node>, i: nat, m: Node)
    requires i < |cs| && m in Preorder(cs[i])
    ensures m in PreorderAll(cs)
  {
    if i > 0 {
      PreorderAllMember(cs[1..], i - 1, m);
    }
  }

  /** A node of a child's subtree is a node of the parent's subtree. */
  lemma ChildPreorderMember(n: Node, i: nat, m: Node)
    requires i < |n.children| && m in Preorder(n.children[i])
    ensures m in Preorder(n)
  {
    PreorderAllMember(n.children, i, m);
  }

  /** A node of a forest's pre-order lies in the pre-order of one of its trees, which is no
      longer than the forest's. */
  lemma {:induction false} PreorderAllSplit(cs: seq<Node>, k: Node) returns (i: nat)
    requires k in PreorderAll(cs)
    ensures i < |cs| && k in Preorder(cs[i]) && |Preorder(cs[i])| <= |PreorderAll(cs)|
  {
    if k in Preorder(cs[0]) {
      i := 0;
    } else {
      var j := PreorderAllSplit(cs[1..], k);
      i := j + 1;
    }
  }

  /** A descendant of a descendant is a descendant. */
  lemma {:induction false} PreorderTransitive(n: Node, m: Node, k: Node)
    requires m in Preorder(n) && k in Preorder(m)
    ensures k in Preorder(n)
    decreases n
  {
    if m != n {
      var i := PreorderAllSplit(n.children, m);
      PreorderTransitive(n.children[i], m, k);
      ChildPreorderMember(n, i, k);
    }
  }

  /** A proper descendant has a strictly smaller subtree, so it differs from its ancestor. */
  lemma {:induction false} ProperDescendantSmaller(n: Node, k: Node)
    requires k in PreorderAll(n.children)
    ensures |Preorder(k)| < |Preorder(n)|
    decreases n
  {
    var i := PreorderAllSplit(n.children, k);
    if k != n.children[i] {
      ProperDescendantSmaller(n.children[i], k);
    }
  }

  // ---------------------------------------------------------------------------
  // Filtering by id

  /** The nodes of `ns` whose id is `id`, in order. */
  function WithId(ns: seq<Node>, id: Option<string>): (r: seq<Node>)
    ensures |r| <= |ns|
  {
    if ns == [] then []
    else (if ns[0].id == id then [ns[0]] else []) + WithId(ns[1..], id)
  }

  /** The first node `WithId` keeps is the first node of `ns` carrying `id`. */
  lemma {:induction false} WithIdFirst(ns: seq<Node>, id: Option<string>, k: nat)
    requires k < |ns| && ns[k].id == id
    requires forall j :: 0 <= j < k ==> ns[j].id != id
    ensures WithId(ns, id) != [] && WithId(ns, id)[0] == ns[k]
  {
    if k > 0 {
      WithIdFirst(ns[1..], id, k - 1);
    }
  }

  /** The nodes of `ns` whose id is not `id`, in order. */
  function WithoutId(ns: seq<Node>, id: Option<string>): (r: seq<Node>)
    ensures |r| <= |ns|
  {
    if ns == [] then []
    else (if ns[0].id != id then [ns[0]] else []) + WithoutId(ns[1..], id)
  }

  /** `WithId` keeps exactly the members carrying `id`. */
  lemma {:induction false} WithIdMembers(ns: seq<Node>, id: Option<string>, m: Node)
    ensures m in WithId(ns, id) <==> m in ns && m.id == id
  {
    if ns != [] {
      WithIdMembers(ns[1..], id, m);
      assert ns == [ns[0]] + ns[1..];
    }
  }

  /** `WithoutId` keeps exactly the members not carrying `id`. */
  lemma {:induction false} WithoutIdMembers(ns: seq<Node>, id: Option<string>, m: Node)
    ensures m in WithoutId(ns, id) <==> m in ns && m.id != id
  {
    if ns != [] {
      WithoutIdMembers(ns[1..], id, m);
      assert ns == [ns[0]] + ns[1..];
    }
  }

  lemma {:induction false} WithIdAppend(a: seq<Node>, b: seq<Node>, id: Option<string>)
    ensures WithId(a + b, id) == WithId(a, id) + WithId(b, id)
  {
    if a == [] {
      assert a + b == b;
    } else {
      assert (a + b)[0] == a[0];
      assert (a + b)[1..] == a[1..] + b;
      WithIdAppend(a[1..], b, id);
      var head := if a[0].id == id then [a[0]] else [];
      calc {
        WithId(a + b, id);
        head + WithId(a[1..] + b, id);
        head + (WithId(a[1..], id) + WithId(b, id));
        (head + WithId(a[1..], id)) + WithId(b, id);
        WithId(a, id) + WithId(b, id);
      }
    }
  }

  lemma {:induction false} WithoutIdAppend(a: seq<Node>, b: seq<Node>, id: Option<string>)
    ensures WithoutId(a + b, id) == WithoutId(a, id) + WithoutId(b, id)
  {
    if a == [] {
      assert a + b == b;
    } else {
      assert (a + b)[0] == a[0];
      assert (a + b)[1..] == a[1..] + b;
      WithoutIdAppend(a[1..], b, id);
      var head := if a[0].id != id then [a[0]] else [];
      calc {
        WithoutId(a + b, id);
        head + WithoutId(a[1..] + b, id);
        head + (WithoutId(a[1..], id) + WithoutId(b, id));
        (head + WithoutId(a[1..], id)) + WithoutId(b, id);
        WithoutId(a, id) + WithoutId(b, id);
      }
    }
  }

  /** Dropping an id nobody carries changes nothing. */
  lemma {:induction false} WithoutAbsentId(ns: seq<Node>, id: Option<string>)
    requires forall m :: m in ns ==> m.id != id
    ensures WithoutId(ns, id) == ns
  {
    if ns != [] {
      WithoutAbsentId(ns[1..], id);
    }
  }

  /** No node of the tree rooted at `n` carries `id`. */
  predicate NoId(n: Node, id: Option<string>) {
    forall m :: m in Preorder(n) ==> m.id != id
  }

  /** No node of the forest `cs` carries `id`. */
  predicate NoIdAmong(cs: seq<Node>, id: Option<string>) {
    forall m :: m in PreorderAll(cs) ==> m.id != id
  }

  /** No node of the tree carrying `id` has a proper descendant that also carries it. */
  predicate NotNested(n: Node, id: Option<string>) {
    forall m :: m in Preorder(n) && m.id == id ==> NoIdAmong(m.children, id)
  }

  /** `NotNested` for every tree of a forest. */
  predicate NotNestedAmong(cs: seq<Node>, id: Option<string>) {
    forall m :: m in PreorderAll(cs) && m.id == id ==> NoIdAmong(m.children, id)
  }

  /** The number of nodes of the tree rooted at `n` that carry `id`. */
  function CountId(n: Node, id: Option<string>): nat {
    |WithId(Preorder(n), id)|
  }

  // ---------------------------------------------------------------------------
  // Paths: a path lists child indexes from the root

  /** The node at `path`, if the path exists. */
  function At(n: Node, path: seq<nat>): Option<Node>
    decreases |path|
  {
    if path == [] then Some(n)
    else if path[0] < |n.children| then At(n.children[path[0]], path[1..])
    else None
  }

  /** The path exists and no node strictly above its end carries `id`. */
  predicate ClearAbove(n: Node, path: seq<nat>, id: Option<string>)
    decreases |path|
  {
    path == [] || (n.id != id && path[0] < |n.children| && ClearAbove(n.children[path[0]], path[1..], id))
  }

  /** The node at `path` is the only node of the tree that may carry `id`: nothing above
      it, nothing in a side branch and nothing below it does. */
  predicate UniquelyAt(n: Node, path: seq<nat>, id: Option<string>)
    decreases |path|
  {
    if path == [] then NoIdAmong(n.children, id)
    else
      && n.id != id
      && path[0] < |n.children|
      && (forall i :: 0 <= i < |n.children| && i != path[0] ==> NoId(n.children[i], id))
      && UniquelyAt(n.children[path[0]], path[1..], id)
  }

  /** The tree with the subtree at `path` replaced by `r` (path-copying update). */
  function ReplaceAt(n: Node, path: seq<nat>, r: Node): Node
    decreases |path|
  {
    if path == [] then r
    else if path[0] < |n.children| then
      n.(children := n.children[path[0] := ReplaceAt(n.children[path[0]], path[1..], r)])
    else n
  }

  // ---------------------------------------------------------------------------
  // Own fields

  /** A node's own fields, with its subtree dropped. */
  function Label(n: Node): Node {
    n.(children := [])
  }

  function Labels(ns: seq<Node>): (ls: seq<Node>)
    ensures |ls| == |ns|
  {
    seq(|ns|, i requires 0 <= i < |ns| => Label(ns[i]))
  }

  lemma LabelsAppend(a: seq<Node>, b: seq<Node>)
    ensures Labels(a + b) == Labels(a) + Labels(b)
  {
    assert forall i :: 0 <= i < |a + b| ==> Labels(a + b)[i] == (Labels(a) + Labels(b))[i];
  }

  // ---------------------------------------------------------------------------
  // Preceding siblings

  /** Every node of the tree in pre-order, paired with its immediately preceding sibling
      (`None` for a first child); the root is paired with `prev`. */
  function Siblings(n: Node, prev: Option<Node>): seq<(Node, Option<Node>)>
    decreases n, 1, 0
  {
    [(n, prev)] + SiblingsFrom(n, 0)
  }

  /** `Siblings` of the children of `parent` from index `i` on, concatenated. */
  function SiblingsFrom(parent: Node, i: nat): seq<(Node, Option<Node>)>
    decreases parent, 0, |parent.children| - i
  {
    if i >= |parent.children| then []
    else
      Siblings(parent.children[i], if i == 0 then None else Some(parent.children[i - 1]))
      + SiblingsFrom(parent, i + 1)
  }

  /** The pair's preceding sibling carries id `pid`. */
  predicate FollowsId(p: (Node, Option<Node>), pid: string) {
    p.1.Some? && p.1.value.id == Some(pid)
  }

  /** The first node of `ps` whose preceding sibling carries id `pid`. */
  function FirstAfter(ps: seq<(Node, Option<Node>)>, pid: string): (r: Option<Node>)
    ensures r.Some? ==> exists k :: 0 <= k < |ps| && ps[k].0 == r.value && FollowsId(ps[k], pid)
    ensures r.None? ==> forall k :: 0 <= k < |ps| ==> !FollowsId(ps[k], pid)
  {
    if ps == [] then None
    else if FollowsId(ps[0], pid) then Some(ps[0].0)
    else FirstAfter(ps[1..], pid)
  }

  lemma {:induction false} FirstAfterAppend(a: seq<(Node, Option<Node>)>, b: seq<(Node, Option<Node>)>, pid: string)
    ensures FirstAfter(a + b, pid) == if FirstAfter(a, pid).Some? then FirstAfter(a, pid) else FirstAfter(b, pid)
  {
    if a == [] {
      assert a + b == b;
    } else {
      assert (a + b)[0] == a[0];
      assert (a + b)[1..] == a[1..] + b;
      FirstAfterAppend(a[1..], b, pid);
    }
  }
}

=== FILE: editor_state.dfy ===
/**
 * The editor record (document, cursor, current node, id of the node before the click
 * point) and the arrow-key rule both versions of cursor navigation follow.
 */
module EditorState {
  import opened Wrappers
  import opened JsString
  import opened Document
  import opened Keys

  /** `x` is the character offset in the current node; `anchorX` the column vertical moves
      aim for; `y` is carried along untouched. */
  datatype Cursor = Cursor(x: int, y: int, anchorX: int)

  datatype Editor = Editor(
    doc: Node,
    cursor: Cursor,
    currentNode: Option<Node>,
    previousNodeId: Option<string>)

  /** What the caret-placement code is handed after a transition: the text crossed, the
      direction, and the styling stack of the node the cursor is in. */
  datatype CaretMovement = CaretMovement(glyph: Option<string>, direction: Horizontal, styling: Option<seq<string>>)

  /** A transition's new editor and, when one was recorded, its caret movement. */
  datatype Step = Step(editor: Editor, movement: Option<CaretMovement>)

  /** A handler that returns early: the editor is kept and no movement is recorded. */
  function NoChange(e: Editor): Step {
    Step(e, None)
  }

  /** The cursor and its anchor both at `x`. */
  function SetCursor(e: Editor, x: int): Editor {
    e.(cursor := e.cursor.(x := x, anchorX := x))
  }

  /** A character as a one-letter string; `undefined` stays `undefined`. */
  function Glyph(c: Option<char>): Option<string> {
    match c
    case Some(ch) => Some([ch])
    case None => None
  }

  /** The cursor is in a node with text, between its first and last character: offsets
      count from 1 on entering a node. */
  predicate Positioned(e: Editor) {
    && e.currentNode.Some?
    && Truthy(e.currentNode.value.content)
    && 1 <= e.cursor.x <= |e.currentNode.value.content.value|
  }

  /** Where an arrow move lands: the node, the offset, and the character crossed. */
  datatype Landing = Landing(node: Node, x: int, crossed: Option<char>)

  /** The arrow rule of `moveWithArrowCursor`, from node `cur` at offset `x`. `previous`
      and `next` are what the page's sibling queries return; they are consulted only at the
      boundaries: Left at offset 1 and Right past the last character. `None` is a move that
      does not happen. */
  function ArrowRule(cur: Node, x: int, direction: Horizontal, previous: Option<Node>, next: Option<Node>): (r: Option<Landing>)
    requires Truthy(cur.content)
    ensures r.Some? ==> Truthy(r.value.node.content)
    ensures 1 <= x <= |cur.content.value| && r.Some? ==> 1 <= r.value.x <= |r.value.node.content.value|
    ensures direction == Right && x < |cur.content.value| ==>
      r == Some(Landing(cur, x + 1, CharAt(cur.content.value, x)))
    ensures direction == Left && x != 1 ==>
      r == Some(Landing(cur, x - 1, CharAt(cur.content.value, x - 1)))
    ensures direction == Left && x == 1 ==>
      r == if previous.Some? && Truthy(previous.value.content)
           then Some(Landing(previous.value, |previous.value.content.value|, Some(cur.content.value[0])))
           else None
    ensures direction == Right && x >= |cur.content.value| ==>
      r == if next.Some? && Truthy(next.value.content)
           then Some(Landing(next.value, 1, Some(next.value.content.value[0])))
           else None
  {
    var content := cur.content.value;
    var position := if direction == Right then x + 1 else x - 1;
    var crossed := CharAt(content, if direction == Right then x else x - 1);
    if direction == Left && x - 1 == 0 then
      match previous
      case None => None
      case Some(p) => if Truthy(p.content) then Some(Landing(p, |p.content.value|, crossed)) else None
    else if direction == Right && x + 1 > |content| then
      match next
      case None => None
      case Some(n) => if Truthy(n.content) then Some(Landing(n, 1, CharAt(n.content.value, 0))) else None
    else Some(Landing(cur, position, crossed))
  }
}

=== FILE: js_string.dfy ===
/**
 * The few JavaScript string behaviours the editor relies on: `String.prototype.slice`
 * with its negative-index rule, out-of-range indexing, and truthiness of an optional string.
 */
module JsString {
  import opened Wrappers

  /** Resolves one `slice` argument: a negative index counts back from the end, then the
      index is clamped into `[0, len]`. */
  function SliceIndex(i: int, len: nat): (k: nat)
    ensures k <= len
    ensures 0 <= i <= len ==> k == i
  {
    if i < 0 then (if len + i < 0 then 0 else len + i)
    else if i > len then len
    else i
  }

  /** `s.slice(start, end)`. */
  function Slice(s: string, start: int, end: int): (r: string)
    ensures |r| <= |s|
    ensures 0 <= start <= end <= |s| ==> r == s[start..end]
  {
    var from := SliceIndex(start, |s|);
    var to := SliceIndex(end, |s|);
    if from < to then s[from..to] else ""
  }

  /** `s[i]`: `undefined` outside `[0, |s|)`. */
  function CharAt(s: string, i: int): (c: Option<char>)
    ensures c.Some? <==> 0 <= i < |s|
    ensures c.Some? ==> c.value == s[i]
  {
    if 0 <= i < |s| then Some(s[i]) else None
  }

  /** JavaScript truthiness of a string that may be `null`: `null` and `""` are falsy. */
  predicate Truthy(s: Option<string>) {
    s.Some? && s.value != ""
  }

  /** `s || ""`. */
  function OrEmpty(s: Option<string>): (r: string)
    ensures s.Some? ==> r == s.value
    ensures s.None? ==> r == ""
  {
    if Truthy(s) then s.value else ""
  }

  /** `s?.length || d`: the length when it is non-zero, otherwise `d`. */
  function LengthOr(s: Option<string>, d: int): (n: int)
    ensures Truthy(s) ==> n == |s.value| && n >= 1
    ensures !Truthy(s) ==> n == d
  {
    if Truthy(s) then |s.value| else d
  }
}

=== FILE: keys.dfy ===
/**
 * Keyboard dispatch: which key names navigate, which are ignored, and which are typed.
 * Key names are the `KeyboardEvent.key` strings the editor's `Keys` enum stands for.
 */
module Keys {

  /** The two horizontal arrow directions. */
  datatype Horizontal = Left | Right

  const ArrowLeft: string := "ArrowLeft"
  const ArrowRight: string := "ArrowRight"
  const ArrowUp: string := "ArrowUp"
  const ArrowDown: string := "ArrowDown"

  /** Deletion keys: their handler is switched off, so they do nothing. */
  const DeletionKeys: set<string> := {"Delete", "Backspace"}

  /** Modifier-only and non-editing keys. */
  const NonEditingKeys: set<string> := {
    "Enter", "Escape", "Tab", "Shift", "Control", "Alt", "Meta", "CapsLock",
    "PageUp", "PageDown", "End", "Home", "Insert", "NumLock", "ScrollLock"
  }

  /** Every key that leaves the editor unchanged. */
  const Ignored: set<string> := DeletionKeys + NonEditingKeys

  /** What a key press asks for. */
  datatype KeyAction = Navigate(direction: Horizontal) | Ignore | Insert(text: string)

  /** The `switch` of `handleKeyPress`. */
  function Classify(key: string): (a: KeyAction)
    ensures a == Navigate(Left) <==> key == ArrowLeft
    ensures a == Navigate(Right) <==> key == ArrowRight
    ensures a == Ignore <==> key in Ignored
    ensures a.Insert? <==> key != ArrowLeft && key != ArrowRight && key !in Ignored
    ensures a.Insert? ==> a.text == key
  {
    if key == ArrowLeft then Navigate(Left)
    else if key == ArrowRight then Navigate(Right)
    else if key == "Delete" || key == "Backspace" then Ignore
    else if key == "Enter" || key == "Escape" || key == "Tab" || key == "Shift"
         || key == "Control" || key == "Alt" || key == "Meta" || key == "CapsLock"
         || key == "PageUp" || key == "PageDown" || key == "End" || key == "Home"
         || key == "Insert" || key == "NumLock" || key == "ScrollLock" then Ignore
    else Insert(key)
  }

  /** The vertical arrows have no case of their own, so they are typed as text. */
  lemma VerticalArrowsAreTyped()
    ensures Classify(ArrowUp) == Insert(ArrowUp)
    ensures Classify(ArrowDown) == Insert(ArrowDown)
  {
  }
}

=== FILE: node_helpers.dfy ===
/**
 * The pure tree functions of the editor's node helpers: lookup by id, character insert and
 * delete on one node's text, replace-by-id, remove-by-id with splice-up of a removed
 * container's children, and "the node that follows a given sibling".
 */
module NodeHelpers {
  import opened Wrappers
  import opened JsString
  import opened Document

  // ---------------------------------------------------------------------------
  // findNodeFromId

  /** Appends to `acc` every node of the tree rooted at `n` whose id is `id`, visiting the
      node before its children, as the source's recursive push into `res` does. */
  function Collect(n: Node, acc: seq<Node>, id: Option<string>): (r: seq<Node>)
    ensures r == acc + WithId(Preorder(n), id)
    decreases n, 1, 0
  {
    var acc' := if n.id == id then acc + [n] else acc;
    var r := CollectFrom(n, 0, acc', id);
    assert n.children[0..] == n.children;
    assert acc' == acc + WithId([n], id) by {
      assert [n][1..] == [];
    }
    WithIdAppend([n], PreorderAll(n.children), id);
    assert r == acc + WithId(Preorder(n), id) by {
      assert r == (acc + WithId([n], id)) + WithId(PreorderAll(n.children), id);
    }
    r
  }

  /** `Collect` over the children of `parent` from index `i` on. */
  function CollectFrom(parent: Node, i: nat, acc: seq<Node>, id: Option<string>): (r: seq<Node>)
    requires i <= |parent.children|
    ensures r == acc + WithId(PreorderAll(parent.children[i..]), id)
    decreases parent, 0, |parent.children| - i
  {
    if i == |parent.children| then acc
    else
      var r := CollectFrom(parent, i + 1, Collect(parent.children[i], acc, id), id);
      PreorderAllFrom(parent.children, i);
      WithIdAppend(Preorder(parent.children[i]), PreorderAll(parent.children[i + 1..]), id);
      assert r == acc + WithId(PreorderAll(parent.children[i..]), id) by {
        assert r == (acc + WithId(Preorder(parent.children[i]), id)) + WithId(PreorderAll(parent.children[i + 1..]), id);
      }
      r
  }

  /** `findNodeFromId(doc, res, id)`: `undefined` for a falsy id, otherwise `res` extended
      with exactly the nodes carrying `id`, in depth-first pre-order. */
  function FindNodeFromId(doc: Node, res: seq<Node>, id: Option<string>): (r: Option<seq<Node>>)
    ensures r.None? <==> !Truthy(id)
    ensures r.Some? ==> r.value == res + WithId(Preorder(doc), id)
  {
    if !Truthy(id) then None else Some(Collect(doc, res, id))
  }

  // ---------------------------------------------------------------------------
  // addCharToNode / removeCharFromNode

  /** `content?.slice(start, end) || ""`. */
  function SliceOr(content: Option<string>, start: int, end: int): string {
    match content
    case None => ""
    case Some(s) => Slice(s, start, end)
  }

  /** `slice` with the same index on both sides of a cut splits the string at that index. */
  lemma SliceSplit(s: string, pos: int)
    ensures Slice(s, 0, pos) == s[..SliceIndex(pos, |s|)]
    ensures Slice(s, pos, |s|) == s[SliceIndex(pos, |s|)..]
  {
  }

  /** `addCharToNode(node, char, pos)`: `ch` spliced into the content at `pos` (a `null`
      content reads as ""; a negative `pos` counts back from the end, as `slice` does). */
  function AddCharToNode(node: Node, ch: string, pos: int): (r: Node)
    ensures r.(content := node.content) == node
    ensures
      var c := OrEmpty(node.content);
      var k := SliceIndex(pos, |c|);
      r.content == Some(c[..k] + ch + c[k..])
    ensures
      var c := OrEmpty(node.content);
      0 <= pos <= |c| ==> r.content == Some(c[..pos] + ch + c[pos..])
  {
    var content := node.content;
    var s1 := SliceOr(content, 0, pos);
    var s2 := SliceOr(content, pos, |OrEmpty(content)|);
    SliceSplit(OrEmpty(content), pos);
    node.(content := Some(s1 + ch + s2))
  }

  /** `removeCharFromNode(node, pos)`: deletes the character before position `pos`. */
  function RemoveCharFromNode(node: Node, pos: int): (r: Node)
    ensures r.(content := node.content) == node
    ensures r.content.Some?
    ensures
      var c := OrEmpty(node.content);
      1 <= pos <= |c| ==> r.content.value == c[..pos - 1] + c[pos..] && |r.content.value| == |c| - 1
    ensures
      var c := OrEmpty(node.content);
      pos == 0 || pos > |c| ==> r.content.value == c
    ensures
      var c := OrEmpty(node.content);
      pos < 0 ==> r.content.value == c[SliceIndex(pos, |c|)..]
  {
    var content := node.content;
    var position := if pos - 1 > 0 then pos - 1 else 0;
    var s1 := SliceOr(content, 0, position);
    var s2 := SliceOr(content, pos, |OrEmpty(content)|);
    node.(content := Some(s1 + s2))
  }

  // ---------------------------------------------------------------------------
  // updateNode

  /** `updateNode(doc, oldNode, newNode)`: every subtree whose root carries `oldNode`'s id,
      and that lies below no other such root, is replaced by `newNode`. */
  function UpdateNode(doc: Node, oldNode: Node, newNode: Node): (r: Node)
    ensures doc.id == oldNode.id ==> r == newNode
    ensures doc.id != oldNode.id ==> Label(r) == Label(doc) && |r.children| == |doc.children|
  {
    if doc.id == oldNode.id then newNode
    else if |doc.children| == 0 then doc
    else
      doc.(children := seq(|doc.children|, i requires 0 <= i < |doc.children| =>
                             UpdateNode(doc.children[i], oldNode, newNode)))
  }

  // ---------------------------------------------------------------------------
  // removeNode

  /** `removeNode(doc, id)`: `null` when `doc` itself carries `id` and has no children, its
      children when it carries `id` and has some, otherwise `[doc]` with the removal applied
      throughout its children. */
  function RemoveNode(doc: Node, id: Option<string>): (r: Option<seq<Node>>)
    ensures r.Some? ==> |r.value| >= 1
    ensures r.None? <==> doc.id == id && doc.children == []
    ensures doc.id != id ==> r.Some? && |r.value| == 1 && Label(r.value[0]) == Label(doc)
  {
    if doc.id == id then
      if |doc.children| > 0 then Some(doc.children) else None
    else if |doc.children| == 0 then Some([doc])
    else Some([doc.(children := RemoveAll(doc.children, id))])
  }

  /** The loop of `removeNode` over a child list: each child's result, `null` ones skipped,
      flattened one level. */
  function RemoveAll(cs: seq<Node>, id: Option<string>): seq<Node>
  {
    if cs == [] then []
    else RemoveNode(cs[0], id).GetOr([]) + RemoveAll(cs[1..], id)
  }

  // ---------------------------------------------------------------------------
  // getNodeFromPreviousNode

  /** `getNodeFromPreviousNode(doc, previousNodeId, previousNode)`: the first node, in
      depth-first order, whose preceding sibling carries `previousNodeId` (the root is
      compared against the `previousNode` it is given). */
  function GetNodeFromPreviousNode(doc: Node, previousNodeId: string, previousNode: Option<Node>): (r: Option<Node>)
    ensures r == FirstAfter(Siblings(doc, previousNode), previousNodeId)
    decreases doc, 1, 0
  {
    if previousNode.Some? && previousNode.value.id == Some(previousNodeId) then Some(doc)
    else
      var r := SearchChildren(doc, 0, previousNodeId);
      assert Siblings(doc, previousNode)[0] == (doc, previousNode);
      assert Siblings(doc, previousNode)[1..] == SiblingsFrom(doc, 0);
      r
  }

  /** The loop of `getNodeFromPreviousNode` over the children of `parent` from index `i`;
      child `i` is given `children[i - 1]` as its predecessor (`undefined` for `i == 0`). */
  function SearchChildren(parent: Node, i: nat, previousNodeId: string): (r: Option<Node>)
    ensures r == FirstAfter(SiblingsFrom(parent, i), previousNodeId)
    decreases parent, 0, |parent.children| - i
  {
    if i >= |parent.children| then None
    else
      var prev := if i == 0 then None else Some(parent.children[i - 1]);
      var found := GetNodeFromPreviousNode(parent.children[i], previousNodeId, prev);
      FirstAfterAppend(Siblings(parent.children[i], prev), SiblingsFrom(parent, i + 1), previousNodeId);
      if found.Some? then found else SearchChildren(parent, i + 1, previousNodeId)
  }

  // ---------------------------------------------------------------------------
  // findPreviousNode / findNextNode

  /** The rendered page's sibling relation, one direction of it: for an element id, the id
      of the element just before (or just after) that element, `""` when the sibling has no
      id; nothing when there is no such element or no such sibling. */
  type Page = string -> Option<string>

  /** What `findPreviousNode` / `findNextNode` return: `undefined`, or the record
      `{node, domNode}`, whose `node` is `undefined` when no node of the tree carries the
      sibling element's id. */
  datatype Neighbour = Absent | Record(node: Option<Node>)

  /** `findPreviousNode(doc, id)` (or `findNextNode`, given the other direction of the page):
      the page is asked only for a truthy id; a sibling whose id is falsy gives `undefined`;
      otherwise the record holds the first node, in pre-order, carrying the sibling's id. */
  function FindSibling(page: Page, doc: Node, id: Option<string>): (r: Neighbour)
    ensures r.Record? <==> Truthy(id) && Truthy(page(id.value))
    ensures r.Record? ==>
      var found := WithId(Preorder(doc), page(id.value));
      && (r.node.None? <==> found == [])
      && (r.node.Some? ==> r.node.value == found[0])
  {
    if !Truthy(id) then Absent
    else
      match page(id.value)
      case None => Absent
      case Some(sid) =>
        match FindNodeFromId(doc, [], Some(sid))
        case None => Absent
        case Some(ns) => Record(if |ns| > 0 then Some(ns[0]) else None)
  }

  /** `findPreviousNode(doc, id)?.node`. */
  function SiblingNode(page: Page, doc: Node, id: Option<string>): Option<Node> {
    match FindSibling(page, doc, id)
    case Absent => None
    case Record(n) => n
  }

  /** A node the sibling query finds is in the tree and carries the sibling element's id. */
  lemma SiblingNodeInTree(page: Page, doc: Node, id: Option<string>)
    ensures SiblingNode(page, doc, id).Some? ==>
      && Truthy(id)
      && SiblingNode(page, doc, id).value in Preorder(doc)
      && SiblingNode(page, doc, id).value.id == page(id.value)
  {
    if SiblingNode(page, doc, id).Some? {
      var found := WithId(Preorder(doc), page(id.value));
      WithIdMembers(Preorder(doc), page(id.value), found[0]);
    }
  }
}

=== FILE: old_functions.dfy ===
/**
 * The earlier handlers kept beside the editor component: typing, the three-way backspace
 * rule (delete the node, merge into the previous node, delete in place), arrow navigation
 * and the vertical-move clamp. They act on `currentNode` directly, with no resolution
 * through `previousNodeId`, and leave `previousNodeId` as it is.
 */
module OldFunctions {
  import opened Wrappers
  import opened JsString
  import opened Document
  import opened NodeHelpers
  import opened Keys
  import opened EditorState
  import TreeProperties

  /** `node?.content`. */
  function ContentOf(n: Option<Node>): Option<string> {
    match n
    case Some(m) => m.content
    case None => None
  }

  // ---------------------------------------------------------------------------
  // addCharacter

  /** `addCharacter(char)`: the current node gets a fresh id and the typed `text` inserted
      at the cursor, replaces the old node by id, and the cursor and anchor advance by one. */
  function AddCharacter(e: Editor, text: string, newId: string): (r: Editor)
    ensures e.currentNode.None? ==> r == e
    ensures e.currentNode.Some? ==>
      var cur := e.currentNode.value;
      var c := OrEmpty(cur.content);
      var k := SliceIndex(e.cursor.x, |c|);
      && r.currentNode == Some(cur.(id := Some(newId), content := Some(c[..k] + text + c[k..])))
      && r.doc == UpdateNode(e.doc, cur, r.currentNode.value)
      && r.cursor == e.cursor.(x := e.cursor.x + 1, anchorX := e.cursor.x + 1)
      && r.previousNodeId == e.previousNodeId
  {
    match e.currentNode
    case None => e
    case Some(cur) =>
      var newNode := AddCharToNode(cur.(id := Some(newId)), text, e.cursor.x);
      SetCursor(e, e.cursor.x + 1).(doc := UpdateNode(e.doc, cur, newNode), currentNode := Some(newNode))
  }

  // ---------------------------------------------------------------------------
  // removeCharacter and its two delegates

  /** `deleteNode()`: the current node is removed from the tree with splice-up; the
      previous node, looked up in the tree after removal, becomes current and the cursor
      goes to its end (1 when there is none or it has no text). A tree whose root is the
      current node and has no children is left alone. */
  function DeleteNode(e: Editor, previous: Page): (r: Editor)
    ensures e.currentNode.None? ==> r == e
    ensures e.currentNode.Some? && RemoveNode(e.doc, e.currentNode.value.id).None? ==> r == e
    ensures e.currentNode.Some? && RemoveNode(e.doc, e.currentNode.value.id).Some? ==>
      var cur := e.currentNode.value;
      var rest := RemoveNode(e.doc, cur.id).value;
      && r.doc == rest[0]
      && r.currentNode == SiblingNode(previous, if e.doc.id == cur.id then e.doc else rest[0], cur.id)
      && r.cursor.x == r.cursor.anchorX >= 1
      && (Truthy(ContentOf(r.currentNode)) ==> r.cursor.x == |r.currentNode.value.content.value|)
      && (!Truthy(ContentOf(r.currentNode)) ==> r.cursor.x == 1)
    ensures e.currentNode.Some? && e.doc.id != e.currentNode.value.id ==> Label(r.doc) == Label(e.doc)
    ensures r.cursor.y == e.cursor.y && r.previousNodeId == e.previousNodeId
  {
    match e.currentNode
    case None => e
    case Some(cur) =>
      match RemoveNode(e.doc, cur.id)
      case None => e
      case Some(rest) =>
        // the copy `removeNode` rewrote in place: unchanged when the root itself was removed
        var searched := if e.doc.id == cur.id then e.doc else rest[0];
        var newNode := SiblingNode(previous, searched, cur.id);
        var x := LengthOr(ContentOf(newNode), 1);
        SetCursor(e, x).(doc := rest[0], currentNode := newNode)
  }

  /** `removeFormNextNode()`: at the start of a node, the last character of the previous
      node is deleted (keeping that node's id) and the cursor moves to its new end. */
  function RemoveFormNextNode(e: Editor, previous: Page): (r: Editor)
    ensures e.currentNode.None? || SiblingNode(previous, e.doc, e.currentNode.value.id).None? ==> r == e
    ensures e.currentNode.Some? && SiblingNode(previous, e.doc, e.currentNode.value.id).Some? ==>
      var p := SiblingNode(previous, e.doc, e.currentNode.value.id).value;
      var c := OrEmpty(p.content);
      && r.currentNode == Some(p.(content := Some(if c == "" then "" else c[..|c| - 1])))
      && r.cursor.x == r.cursor.anchorX == |r.currentNode.value.content.value|
      && r.doc == UpdateNode(e.doc, p, r.currentNode.value)
    ensures r.cursor.y == e.cursor.y && r.previousNodeId == e.previousNodeId
  {
    match e.currentNode
    case None => e
    case Some(cur) =>
      match SiblingNode(previous, e.doc, cur.id)
      case None => e
      case Some(p) =>
        var x := LengthOr(p.content, 1);
        var newNode := RemoveCharFromNode(p, x);
        RemoveLastChar(p);
        SetCursor(e, x - 1).(doc := UpdateNode(e.doc, p, newNode), currentNode := Some(newNode))
  }

  /** Deleting before position `content?.length || 1` drops the last character, if any. */
  lemma RemoveLastChar(p: Node)
    ensures
      var c := OrEmpty(p.content);
      RemoveCharFromNode(p, LengthOr(p.content, 1)).content == Some(if c == "" then "" else c[..|c| - 1])
  {
    var c := OrEmpty(p.content);
    if c != "" {
      assert c[|c|..] == [];
      assert c[..|c| - 1] + c[|c|..] == c[..|c| - 1];
    }
  }

  /** `removeCharacter()`: a one-character node is deleted; otherwise at offset 0 the
      previous node loses its last character; otherwise the character before the cursor is
      deleted in a fresh-id copy of the node. From offset 1 the cursor then moves to the
      end of the previous node when one is found; when the page has a previous element but
      no node carries its id, the handler reads `content` off `undefined` and throws,
      which leaves the editor as it was. */
  function RemoveCharacter(e: Editor, newId: string, previous: Page): (r: Editor)
    ensures e.currentNode.None? ==> r == e
    ensures e.currentNode.Some? && |OrEmpty(e.currentNode.value.content)| == 1 ==> r == DeleteNode(e, previous)
    ensures e.currentNode.Some? && |OrEmpty(e.currentNode.value.content)| != 1 && e.cursor.x == 0 ==>
      r == RemoveFormNextNode(e, previous)
    ensures
      && e.currentNode.Some? && |OrEmpty(e.currentNode.value.content)| != 1 && e.cursor.x == 1
      && FindSibling(previous, e.doc, e.currentNode.value.id) == Record(None)
      ==> r == e
    ensures e.currentNode.Some? && 2 <= e.cursor.x <= |OrEmpty(e.currentNode.value.content)| ==>
      var cur := e.currentNode.value;
      var c := OrEmpty(cur.content);
      && r.currentNode == Some(cur.(id := Some(newId), content := Some(c[..e.cursor.x - 1] + c[e.cursor.x..])))
      && r.doc == UpdateNode(e.doc, cur, r.currentNode.value)
      && r.cursor == e.cursor.(x := e.cursor.x - 1, anchorX := e.cursor.x - 1)
    ensures r.cursor.y == e.cursor.y && r.previousNodeId == e.previousNodeId
  {
    match e.currentNode
    case None => e
    case Some(cur) =>
      var content := OrEmpty(cur.content);
      if |content| == 1 then DeleteNode(e, previous)
      else if e.cursor.x == 0 then RemoveFormNextNode(e, previous)
      else if e.cursor.x == 1 && FindSibling(previous, e.doc, cur.id) == Record(None) then e
      else
        var atFirstChar := e.cursor.x == 1;
        var edited := RemoveCharFromNode(cur.(id := Some(newId)), e.cursor.x);
        var newDoc := UpdateNode(e.doc, cur, edited);
        var found := if atFirstChar then SiblingNode(previous, e.doc, cur.id) else None;
        var newNode := if found.Some? then found.value else edited;
        var x := if atFirstChar then LengthOr(newNode.content, 1) else e.cursor.x - 1;
        SetCursor(e, x).(doc := newDoc, currentNode := Some(newNode))
  }

  /** Backspace at offset 1 of a longer text: the first character goes, and the cursor
      moves to the end of the previous node (1 when it has no text), or, when the page has
      no previous element, to the end of the edited node; a previous element no node
      answers to makes the handler throw. */
  lemma BackspaceAtFirstChar(e: Editor, newId: string, previous: Page)
    requires e.currentNode.Some? && e.cursor.x == 1
    requires |OrEmpty(e.currentNode.value.content)| >= 2
    ensures
      var cur := e.currentNode.value;
      var c := OrEmpty(cur.content);
      var edited := cur.(id := Some(newId), content := Some(c[1..]));
      var r := RemoveCharacter(e, newId, previous);
      && (FindSibling(previous, e.doc, cur.id) == Record(None) ==> r == e)
      && (FindSibling(previous, e.doc, cur.id) != Record(None) ==>
            && r.doc == UpdateNode(e.doc, cur, edited)
            && r.currentNode == Some(SiblingNode(previous, e.doc, cur.id).GetOr(edited))
            && r.cursor.x == r.cursor.anchorX == LengthOr(r.currentNode.value.content, 1))
      && (FindSibling(previous, e.doc, cur.id) == Absent ==>
            r.currentNode == Some(edited) && r.cursor.x == |c| - 1)
  {
    var c := OrEmpty(e.currentNode.value.content);
    assert c[..0] + c[1..] == c[1..];
  }

  /** Backspace on a one-character node removes it: with the node's id unique and the node
      not the root, no node with that id is left, the node the page shows before it in the
      edited tree becomes current, and the cursor lands at its end (at 1 without text). */
  lemma BackspaceOnSingleCharRemovesNode(e: Editor, newId: string, previous: Page)
    requires e.currentNode.Some? && |OrEmpty(e.currentNode.value.content)| == 1
    requires e.doc.id != e.currentNode.value.id
    requires CountId(e.doc, e.currentNode.value.id) <= 1
    ensures
      var id := e.currentNode.value.id;
      var r := RemoveCharacter(e, newId, previous);
      && NoId(r.doc, id)
      && r.currentNode == SiblingNode(previous, r.doc, id)
      && r.cursor.x >= 1
      && (Truthy(ContentOf(r.currentNode)) ==> r.cursor.x == |r.currentNode.value.content.value|)
      && (!Truthy(ContentOf(r.currentNode)) ==> r.cursor.x == 1)
  {
    var id := e.currentNode.value.id;
    TreeProperties.RemoveNodeEliminates(e.doc, id);
    var rest := RemoveNode(e.doc, id).value;
    assert PreorderAll(rest) == Preorder(rest[0]) by {
      assert rest == [rest[0]];
      assert rest[1..] == [];
    }
  }

  /** Typing one character and then deleting it restores the node's text and the cursor,
      and the tree equals one replacement of the original node by its restored copy. */
  lemma TypeThenBackspaceRestores(e: Editor, ch: string, newId: string, newId': string, previous: Page)
    requires e.currentNode.Some? && |ch| == 1
    requires 1 <= e.cursor.x <= |OrEmpty(e.currentNode.value.content)|
    requires NoId(e.doc, Some(newId))
    ensures
      var cur := e.currentNode.value;
      var r := RemoveCharacter(AddCharacter(e, ch, newId), newId', previous);
      && r.currentNode == Some(cur.(id := Some(newId'), content := Some(OrEmpty(cur.content))))
      && r.doc == UpdateNode(e.doc, cur, r.currentNode.value)
      && r.cursor == e.cursor.(anchorX := e.cursor.x)
      && r.previousNodeId == e.previousNodeId
  {
    var cur := e.currentNode.value;
    var x := e.cursor.x;
    var typed := AddCharacter(e, ch, newId);
    var added := typed.currentNode.value;
    assert added == AddCharToNode(cur.(id := Some(newId)), ch, x);
    TreeProperties.AddThenRemoveRestores(cur.(id := Some(newId)), ch, x);
    assert RemoveCharFromNode(added.(id := Some(newId')), x + 1)
        == RemoveCharFromNode(added, x + 1).(id := Some(newId'));
    TreeProperties.UpdateNodeTwice(e.doc, cur, added, RemoveCharFromNode(added.(id := Some(newId')), x + 1));
  }

  // ---------------------------------------------------------------------------
  // moveWithArrowCursor

  /** The earlier `moveWithArrowCursor`: the arrow rule from `currentNode`, with both
      sibling queries keyed by its id. */
  function MoveWithArrowCursor(e: Editor, direction: Horizontal, previous: Page, next: Page): (r: Editor)
    ensures r.doc == e.doc && r.previousNodeId == e.previousNodeId && r.cursor.y == e.cursor.y
    ensures r != e ==>
      r.cursor.anchorX == r.cursor.x && r.currentNode.Some? && Truthy(r.currentNode.value.content)
    ensures e.currentNode.None? || !Truthy(e.currentNode.value.content) ==> r == e
    ensures e.currentNode.Some? && Truthy(e.currentNode.value.content) ==>
      var cur := e.currentNode.value;
      var l := ArrowRule(cur, e.cursor.x, direction, SiblingNode(previous, e.doc, cur.id), SiblingNode(next, e.doc, cur.id));
      && (l.None? ==> r == e)
      && (l.Some? ==> r.currentNode == Some(l.value.node) && r.cursor.x == l.value.x)
    ensures e.currentNode.Some? && Truthy(e.currentNode.value.content) ==>
      var x := e.cursor.x;
      && (direction == Right && x < |e.currentNode.value.content.value| ==>
            r.currentNode == e.currentNode && r.cursor.x == x + 1)
      && (direction == Left && x != 1 ==>
            r.currentNode == e.currentNode && r.cursor.x == x - 1)
  {
    match e.currentNode
    case None => e
    case Some(cur) =>
      if !Truthy(cur.content) then e
      else
        match ArrowRule(cur, e.cursor.x, direction, SiblingNode(previous, e.doc, cur.id), SiblingNode(next, e.doc, cur.id))
        case None => e
        case Some(l) => SetCursor(e, l.x).(currentNode := Some(l.node))
  }

  /** Arrow moves keep the cursor inside the current node's text. */
  lemma MoveKeepsPositioned(e: Editor, direction: Horizontal, previous: Page, next: Page)
    requires Positioned(e)
    ensures Positioned(MoveWithArrowCursor(e, direction, previous, next))
  {
  }

  // ---------------------------------------------------------------------------
  // moveCursorHorizontal

  /** The node-and-offset part of `moveCursorHorizontal(key)`: Down goes to the next node,
      Up to the previous one, any other key nowhere; the cursor takes the anchor column
      clamped to the target's length, and the anchor itself is kept. */
  function MoveCursorHorizontal(e: Editor, key: string, previous: Page, next: Page): (r: Editor)
    ensures r.doc == e.doc && r.cursor.anchorX == e.cursor.anchorX && r.cursor.y == e.cursor.y
    ensures r.previousNodeId == e.previousNodeId
    ensures key != ArrowUp && key != ArrowDown ==> r == e
    ensures r != e ==>
      && r.currentNode.Some?
      && (key == ArrowDown ==> r.currentNode == SiblingNode(next, e.doc, IdOf(e.currentNode)))
      && (key == ArrowUp ==> r.currentNode == SiblingNode(previous, e.doc, IdOf(e.currentNode)))
      && r.cursor.x <= |OrEmpty(r.currentNode.value.content)|
      && (e.cursor.anchorX <= |OrEmpty(r.currentNode.value.content)| ==> r.cursor.x == e.cursor.anchorX)
      && (e.cursor.anchorX > |OrEmpty(r.currentNode.value.content)| ==> r.cursor.x == |OrEmpty(r.currentNode.value.content)|)
    ensures key == ArrowDown && SiblingNode(next, e.doc, IdOf(e.currentNode)).Some? ==>
      var n := SiblingNode(next, e.doc, IdOf(e.currentNode)).value;
      var len := LengthOr(n.content, 0);
      r.currentNode == Some(n) && r.cursor.x == (if e.cursor.anchorX > len then len else e.cursor.anchorX)
    ensures key == ArrowUp && SiblingNode(previous, e.doc, IdOf(e.currentNode)).Some? ==>
      var n := SiblingNode(previous, e.doc, IdOf(e.currentNode)).value;
      var len := LengthOr(n.content, 0);
      r.currentNode == Some(n) && r.cursor.x == (if e.cursor.anchorX > len then len else e.cursor.anchorX)
    ensures key == ArrowDown && SiblingNode(next, e.doc, IdOf(e.currentNode)).None? ==> r == e
    ensures key == ArrowUp && SiblingNode(previous, e.doc, IdOf(e.currentNode)).None? ==> r == e
  {
    var target :=
      if key == ArrowDown then SiblingNode(next, e.doc, IdOf(e.currentNode))
      else if key == ArrowUp then SiblingNode(previous, e.doc, IdOf(e.currentNode))
      else None;
    match target
    case None => e
    case Some(node) =>
      var contentLen := LengthOr(node.content, 0);
      var pos := if e.cursor.anchorX > contentLen then contentLen else e.cursor.anchorX;
      e.(currentNode := Some(node), cursor := e.cursor.(x := pos))
  }

  /** Vertical moves remember the column: after two of them, if anything moved, the cursor
      sits at the original anchor clamped to the length of the node finally reached. */
  lemma VerticalMovesKeepColumn(e: Editor, k1: string, k2: string, previous: Page, next: Page)
    ensures
      var r := MoveCursorHorizontal(MoveCursorHorizontal(e, k1, previous, next), k2, previous, next);
      var len := |OrEmpty(ContentOf(r.currentNode))|;
      && r.cursor.anchorX == e.cursor.anchorX
      && (r != e ==> r.cursor.x == if e.cursor.anchorX > len then len else e.cursor.anchorX)
  {
  }

  /** Down then Up returns to the starting node when the page's two sibling relations are
      inverse at its element and its id is carried by no other node: the cursor ends at
      the anchor column clamped to the node's length. */
  lemma DownThenUpReturns(e: Editor, previous: Page, next: Page, below: string)
    requires e.currentNode.Some? && Truthy(e.currentNode.value.id)
    requires e.currentNode.value in Preorder(e.doc) && CountId(e.doc, e.currentNode.value.id) == 1
    requires next(e.currentNode.value.id.value) == Some(below)
    requires previous(below) == e.currentNode.value.id
    requires SiblingNode(next, e.doc, e.currentNode.value.id).Some?
    ensures
      var cur := e.currentNode.value;
      var len := |OrEmpty(cur.content)|;
      var r := MoveCursorHorizontal(MoveCursorHorizontal(e, ArrowDown, previous, next), ArrowUp, previous, next);
      && r.currentNode == e.currentNode
      && r.cursor.x == (if e.cursor.anchorX > len then len else e.cursor.anchorX)
      && r.cursor.anchorX == e.cursor.anchorX
  {
    var cur := e.currentNode.value;
    var n := SiblingNode(next, e.doc, cur.id).value;
    SiblingNodeInTree(next, e.doc, cur.id);
    assert n.id == Some(below);
    var found := WithId(Preorder(e.doc), cur.id);
    WithIdMembers(Preorder(e.doc), cur.id, cur);
    WithIdMembers(Preorder(e.doc), cur.id, found[0]);
    assert |found| == 1 && cur in found;
    assert SiblingNode(previous, e.doc, n.id) == Some(cur);
  }
}

=== FILE: tree_properties.dfy ===
/**
 * Properties of the node helpers: the insert/delete round trip on a node's text, what
 * replace-by-id does to every part of the tree, and what splice-up removal keeps.
 */
module TreeProperties {
  import opened Wrappers
  import opened JsString
  import opened Document
  import opened NodeHelpers

  // ---------------------------------------------------------------------------
  // findNodeFromId

  /** With a truthy id and an empty accumulator, the result holds exactly the nodes of the
      tree that carry the id. */
  lemma FindNodeFromIdExact(doc: Node, id: Option<string>, m: Node)
    requires Truthy(id)
    ensures FindNodeFromId(doc, [], id).Some?
    ensures m in FindNodeFromId(doc, [], id).value <==> m in Preorder(doc) && m.id == id
  {
    WithIdMembers(Preorder(doc), id, m);
    assert [] + WithId(Preorder(doc), id) == WithId(Preorder(doc), id);
  }

  // ---------------------------------------------------------------------------
  // addCharToNode / removeCharFromNode

  /** Inserting one character at `p` and then deleting the character before `p + 1`
      restores the text (a `null` content comes back as ""), and nothing else changes. */
  lemma AddThenRemoveRestores(n: Node, ch: string, p: int)
    requires |ch| == 1
    requires 0 <= p <= |OrEmpty(n.content)|
    ensures RemoveCharFromNode(AddCharToNode(n, ch, p), p + 1) == n.(content := Some(OrEmpty(n.content)))
  {
    var c := OrEmpty(n.content);
    var added := AddCharToNode(n, ch, p);
    var c' := c[..p] + ch + c[p..];
    assert added.content == Some(c');
    assert OrEmpty(added.content) == c';
    assert c'[..p] == c[..p];
    assert c'[p + 1..] == c[p..];
    assert c[..p] + c[p..] == c;
  }

  // ---------------------------------------------------------------------------
  // updateNode

  /** When no node carries `oldNode`'s id the tree comes back unchanged. */
  lemma {:induction false} UpdateNodeNoMatch(doc: Node, oldNode: Node, newNode: Node)
    requires NoId(doc, oldNode.id)
    ensures UpdateNode(doc, oldNode, newNode) == doc
    decreases doc
  {
    assert doc in Preorder(doc);
    if |doc.children| > 0 {
      forall i | 0 <= i < |doc.children|
        ensures UpdateNode(doc.children[i], oldNode, newNode) == doc.children[i]
      {
        forall m | m in Preorder(doc.children[i]) ensures m.id != oldNode.id {
          ChildPreorderMember(doc, i, m);
        }
        UpdateNodeNoMatch(doc.children[i], oldNode, newNode);
      }
      assert UpdateNode(doc, oldNode, newNode).children == doc.children;
    }
  }

  /** A subtree that carries `oldNode`'s id and lies below no other such subtree is
      replaced by `newNode`, whatever else the tree holds. */
  lemma {:induction false} UpdateNodeReplacesMatch(doc: Node, oldNode: Node, newNode: Node, path: seq<nat>)
    requires ClearAbove(doc, path, oldNode.id)
    requires At(doc, path).Some? && At(doc, path).value.id == oldNode.id
    ensures At(UpdateNode(doc, oldNode, newNode), path) == Some(newNode)
    decreases |path|
  {
    if path != [] {
      UpdateNodeReplacesMatch(doc.children[path[0]], oldNode, newNode, path[1..]);
    }
  }

  /** A node on a path free of matches keeps its own fields and its number of children. */
  lemma {:induction false} UpdateNodeKeepsOthers(doc: Node, oldNode: Node, newNode: Node, path: seq<nat>)
    requires ClearAbove(doc, path, oldNode.id)
    requires At(doc, path).Some? && At(doc, path).value.id != oldNode.id
    ensures
      var r := At(UpdateNode(doc, oldNode, newNode), path);
      r.Some? && Label(r.value) == Label(At(doc, path).value)
      && |r.value.children| == |At(doc, path).value.children|
    decreases |path|
  {
    if path != [] {
      UpdateNodeKeepsOthers(doc.children[path[0]], oldNode, newNode, path[1..]);
    }
  }

  /** If `newNode` does not carry the id anywhere, no node of the result carries it. */
  lemma {:induction false} UpdateNodeEliminates(doc: Node, oldNode: Node, newNode: Node)
    requires NoId(newNode, oldNode.id)
    ensures NoId(UpdateNode(doc, oldNode, newNode), oldNode.id)
    decreases doc
  {
    var r := UpdateNode(doc, oldNode, newNode);
    if doc.id != oldNode.id && |doc.children| > 0 {
      forall m | m in Preorder(r) ensures m.id != oldNode.id {
        if m != r {
          var i := PreorderAllSplit(r.children, m);
          UpdateNodeEliminates(doc.children[i], oldNode, newNode);
        }
      }
    }
  }

  /** Replacing by id twice with the same replacement is the same as replacing once. */
  lemma UpdateNodeIdempotent(doc: Node, oldNode: Node, newNode: Node)
    requires NoId(newNode, oldNode.id)
    ensures UpdateNode(UpdateNode(doc, oldNode, newNode), oldNode, newNode) == UpdateNode(doc, oldNode, newNode)
  {
    UpdateNodeEliminates(doc, oldNode, newNode);
    UpdateNodeNoMatch(UpdateNode(doc, oldNode, newNode), oldNode, newNode);
  }

  /** With the id carried by one node only, the whole-tree replace equals the path-copying
      replace at that node's position. */
  lemma {:induction false} UpdateNodeIsPathCopy(doc: Node, oldNode: Node, newNode: Node, path: seq<nat>)
    requires UniquelyAt(doc, path, oldNode.id)
    requires At(doc, path).Some? && At(doc, path).value.id == oldNode.id
    ensures UpdateNode(doc, oldNode, newNode) == ReplaceAt(doc, path, newNode)
    decreases |path|
  {
    if path != [] {
      var j := path[0];
      var cs := doc.children;
      var r := UpdateNode(doc, oldNode, newNode);
      UpdateNodeIsPathCopy(cs[j], oldNode, newNode, path[1..]);
      forall i | 0 <= i < |cs| && i != j ensures r.children[i] == cs[i] {
        UpdateNodeNoMatch(cs[i], oldNode, newNode);
      }
      assert r.children == cs[j := ReplaceAt(cs[j], path[1..], newNode)];
    }
  }

  /** Replacing `oldNode` by a fresh-id node and then that node by another is one
      replacement of `oldNode` by the second. */
  lemma {:induction false} UpdateNodeTwice(doc: Node, oldNode: Node, first: Node, second: Node)
    requires NoId(doc, first.id)
    ensures UpdateNode(UpdateNode(doc, oldNode, first), first, second) == UpdateNode(doc, oldNode, second)
    decreases doc
  {
    assert doc in Preorder(doc);
    if doc.id != oldNode.id && |doc.children| > 0 {
      var mid := UpdateNode(doc, oldNode, first);
      forall i | 0 <= i < |doc.children|
        ensures UpdateNode(mid.children[i], first, second) == UpdateNode(doc.children[i], oldNode, second)
      {
        forall m | m in Preorder(doc.children[i]) ensures m.id != first.id {
          ChildPreorderMember(doc, i, m);
        }
        UpdateNodeTwice(doc.children[i], oldNode, first, second);
      }
    }
  }

  // ---------------------------------------------------------------------------
  // removeNode

  lemma {:induction false} RemoveAllAppend(a: seq<Node>, b: seq<Node>, id: Option<string>)
    ensures RemoveAll(a + b, id) == RemoveAll(a, id) + RemoveAll(b, id)
  {
    if a == [] {
      assert a + b == b;
    } else {
      assert (a + b)[0] == a[0];
      assert (a + b)[1..] == a[1..] + b;
      RemoveAllAppend(a[1..], b, id);
    }
  }

  /** Splice-up: in a child list, a node carrying the id is replaced by its own children,
      in order (by nothing when it has none); its siblings are processed independently. */
  lemma RemoveNodeSplicesUp(before: seq<Node>, m: Node, after: seq<Node>, id: Option<string>)
    requires m.id == id
    ensures RemoveAll(before + [m] + after, id) == RemoveAll(before, id) + m.children + RemoveAll(after, id)
  {
    RemoveAllAppend(before + [m], after, id);
    RemoveAllAppend(before, [m], id);
    assert RemoveAll([m], id) == m.children by {
      assert [m][1..] == [];
    }
  }

  /** The pre-order of what `removeNode` returns lists, field for field, the nodes of the
      original pre-order that do not carry the id, in the same order. */
  lemma {:induction false} RemoveNodeKeepsOrder(doc: Node, id: Option<string>)
    requires NotNested(doc, id)
    ensures Labels(PreorderAll(RemoveNode(doc, id).GetOr([]))) == Labels(WithoutId(Preorder(doc), id))
    decreases doc, 1
  {
    WithoutIdPreorder(doc, id);
    if doc.id == id {
      KeepsOrderAtMatch(doc, id);
    } else if |doc.children| == 0 {
      assert PreorderAll([doc]) == Preorder(doc) by {
        assert [doc][1..] == [];
      }
    } else {
      NotNestedBelow(doc, id);
      RemoveAllKeepsOrder(doc.children, id);
      KeepsOrderBelowRoot(doc, id);
    }
  }

  /** A matching root with no match below it is replaced by its children, which the filter
      keeps whole. */
  lemma KeepsOrderAtMatch(doc: Node, id: Option<string>)
    requires doc.id == id && NotNested(doc, id)
    ensures Labels(PreorderAll(RemoveNode(doc, id).GetOr([]))) == Labels(WithoutId(PreorderAll(doc.children), id))
  {
    assert doc in Preorder(doc);
    WithoutAbsentId(PreorderAll(doc.children), id);
  }

  /** No nesting in a tree means none among its children. */
  lemma NotNestedBelow(doc: Node, id: Option<string>)
    requires NotNested(doc, id)
    ensures NotNestedAmong(doc.children, id)
  {
    forall m | m in PreorderAll(doc.children) && m.id == id ensures NoIdAmong(m.children, id) {
      assert m in Preorder(doc);
    }
  }

  /** The id filter of a pre-order decides on the root, then on the children's pre-orders. */
  lemma WithoutIdPreorder(doc: Node, id: Option<string>)
    ensures WithoutId(Preorder(doc), id) == (if doc.id != id then [doc] else []) + WithoutId(PreorderAll(doc.children), id)
  {
    assert WithoutId([doc], id) == (if doc.id != id then [doc] else []) by {
      assert [doc][1..] == [];
    }
    WithoutIdAppend([doc], PreorderAll(doc.children), id);
  }

  /** A kept root with children: order is kept when it is kept among the children. */
  lemma KeepsOrderBelowRoot(doc: Node, id: Option<string>)
    requires doc.id != id && |doc.children| > 0
    requires Labels(PreorderAll(RemoveAll(doc.children, id))) == Labels(WithoutId(PreorderAll(doc.children), id))
    ensures Labels(PreorderAll(RemoveNode(doc, id).GetOr([]))) == Labels([doc] + WithoutId(PreorderAll(doc.children), id))
  {
    var d' := doc.(children := RemoveAll(doc.children, id));
    assert RemoveNode(doc, id).GetOr([]) == [d'];
    assert PreorderAll([d']) == [d'] + PreorderAll(d'.children) by {
      assert [d'][1..] == [];
    }
    LabelsAppend([d'], PreorderAll(d'.children));
    LabelsAppend([doc], WithoutId(PreorderAll(doc.children), id));
  }

  /** `RemoveNodeKeepsOrder` for a child list. */
  lemma {:induction false} RemoveAllKeepsOrder(cs: seq<Node>, id: Option<string>)
    requires NotNestedAmong(cs, id)
    ensures Labels(PreorderAll(RemoveAll(cs, id))) == Labels(WithoutId(PreorderAll(cs), id))
    decreases cs, 0
  {
    if cs != [] {
      var head := RemoveNode(cs[0], id).GetOr([]);
      forall m | m in Preorder(cs[0]) && m.id == id ensures NoIdAmong(m.children, id) {
        PreorderAllMember(cs, 0, m);
      }
      RemoveNodeKeepsOrder(cs[0], id);
      forall m | m in PreorderAll(cs[1..]) && m.id == id ensures NoIdAmong(m.children, id) {
        assert m in PreorderAll(cs);
      }
      RemoveAllKeepsOrder(cs[1..], id);
      PreorderAllAppend(head, RemoveAll(cs[1..], id));
      LabelsAppend(PreorderAll(head), PreorderAll(RemoveAll(cs[1..], id)));
      WithoutIdAppend(Preorder(cs[0]), PreorderAll(cs[1..]), id);
      LabelsAppend(WithoutId(Preorder(cs[0]), id), WithoutId(PreorderAll(cs[1..]), id));
    }
  }

  /** A node carrying `id` below another node carrying `id` makes the id occur twice. */
  lemma NestedMatchCountsTwice(doc: Node, id: Option<string>, m: Node, k: Node)
    requires m in Preorder(doc) && m.id == id && k in PreorderAll(m.children)
    ensures k.id == id ==> CountId(doc, id) >= 2
  {
    if k.id == id {
      ProperDescendantSmaller(m, k);
      PreorderTransitive(m, k, k);
      assert k in Preorder(m);
      PreorderTransitive(doc, m, k);
      WithIdMembers(Preorder(doc), id, m);
      WithIdMembers(Preorder(doc), id, k);
      var found := WithId(Preorder(doc), id);
      assert m in found && k in found && m != k;
    }
  }

  /** Unique ids are never nested. */
  lemma UniqueIdsNotNested(doc: Node, id: Option<string>)
    requires CountId(doc, id) <= 1
    ensures NotNested(doc, id)
  {
    forall m, k | m in Preorder(doc) && m.id == id && k in PreorderAll(m.children)
      ensures k.id != id
    {
      NestedMatchCountsTwice(doc, id, m, k);
    }
  }

  /** With unique ids, no node carrying the removed id is left. */
  lemma RemoveNodeEliminates(doc: Node, id: Option<string>)
    requires CountId(doc, id) <= 1
    ensures NoIdAmong(RemoveNode(doc, id).GetOr([]), id)
  {
    UniqueIdsNotNested(doc, id);
    RemoveNodeKeepsOrder(doc, id);
    var xs := PreorderAll(RemoveNode(doc, id).GetOr([]));
    var ws := WithoutId(Preorder(doc), id);
    forall m | m in xs ensures m.id != id {
      var k :| 0 <= k < |xs| && xs[k] == m;
      assert Labels(xs)[k] == Label(m);
      assert Labels(ws)[k] == Label(ws[k]);
      WithoutIdMembers(Preorder(doc), id, ws[k]);
    }
  }
}

=== FILE: wrappers.dfy ===
/** Optional values: the model's rendering of JavaScript's `undefined`/`null`. */
module Wrappers {

  datatype Option<+T> = None | Some(value: T) {

    /** The wrapped value, or `default` when there is none. */
    function GetOr(default: T): T {
      match this
      case Some(v) => v
      case None => default
    }
  }
}
